=== FILE: README.md ===
# Matrix webhook bridge: a verified model of its core

The bridge is a Matrix appservice. A user in a room sends `!webhook`, and
the bridge's bot creates a webhook for that room. The bot then sends the
hook's URL to a private admin room it shares with the user. Anyone may POST
a JSON payload to that URL. The bridge turns the payload into an
`m.room.message` and posts it into the room as a virtual user of its own,
one per webhook.

This project models the bridge's decisions and text transformations as
pure Dafny functions over immutable data, and proves what they promise.

- **`Emoji`** (`emoji.dfy`) models shortcode substitution. The text is split
  on `:` and the parts run through a one-flag state machine. The emoji
  table is a parameter. The loop is modelled as written and proved equal
  to a recursive definition.
- **`HtmlText`** (`html_text.dfy`) models the reduction of HTML to plain
  text. Text nodes are concatenated in document order over an abstract
  node tree. The HTML5 parser is a parameter.
- **`WebhookRequest`** (`webhook_request.dfy`) models three things:
  - how the payload is read, including the defaults for `emoji` and
    `msgtype`;
  - how the message content is composed, with six (msgtype, format) cases;
  - the display-name and avatar precedence rules.
- **`WebhookStore`** (`store.dfy`) models the webhook table as a map keyed
  by the primary key.
- **`Identity`** (`identity.dfy`) derives the per-webhook localpart. It is
  the bot localpart, `__`, and the lower-case hex of the first 16 bytes of
  SHA-256 of the webhook id. Hex encoding is proved invertible. SHA-256 is
  a parameter.
- **`Host`** (`host.dfy`) is the abstract state the bridge acts on. It has
  three parts: the webhook table, the set of joined (user, room) pairs, and
  the ordered log of invites, joins, room creations and messages.
- **`Webhook`** (`webhook.dfy`) models delivering one payload. In order, it
  looks up the webhook, derives the poster's localpart, registers and
  syncs the poster, and has the primary bot invite the poster and the
  poster join the room, but only when the poster is not already joined.
  It then sends the message. It also maps the result to the HTTP reply.
- **`Bot`** (`bot.dfy`) models the primary bot:
  - the first-match search for the admin room, creating a private chat
    when none qualifies;
  - the `!webhook` command and the hook URL it advertises;
  - the invite handler, which joins only when the bot itself is invited;
  - the outer event handlers, which always succeed;
  - the avatar upload-skip rule of the bot's registration.
- **`Cli`** (`cli.dfy`) models three things:
  - command-line validation, with its ordered error messages;
  - the appservice registration written in generate mode;
  - the hook route, proved to accept exactly the URLs the bot advertises.

Every call to the homeserver or to the database is modelled as an outcome
parameter. Its effect, if any, is a state update of the host. When the
source wraps an error with a context message, the model's error is that
message.

In emoji substitution, the test `i == num_parts` in `src/emoji.rs:18`
never fires inside the loop, because the index stays below `num_parts`. So
the last `:`-separated part is looked up like any interior part, and only
the first part is always emitted verbatim. `Emoji.FinalSegmentReplaced`
proves the consequence: `p:x` with `x` in the table becomes `p` followed by
the glyph.

## Model

| member | source | states |
|---|---|---|
| Emoji.ReplaceEmojiLoop | src/emoji.rs:11-37 | The loop as written, including the end-of-input test that never fires, computes exactly the recursive substitution. The first part is emitted verbatim. A known name becomes its glyph and sets the skip flag. The part after a replacement is emitted without its colon. An unknown part gets its colon back. |
| Emoji.NoColonUnchanged | src/emoji.rs:12-24 | A text without any colon is returned unchanged. |
| Emoji.UnmatchedTextUnchanged | src/emoji.rs:30-36 | If no part after the first is a table key, the output equals the input, because every unmatched part is re-emitted with its colon. |
| Emoji.FirstSegmentVerbatim | src/emoji.rs:18-24 | Every colon-free prefix of the input is a prefix of the output. |
| Emoji.MatchConsumesFollowing | src/emoji.rs:18-29 | A matched part is replaced by its glyph and its colon dropped. The next part is emitted verbatim without its colon and is not looked up. Matching then resumes. |
| Emoji.FinalSegmentReplaced | src/emoji.rs:15-18 | The last part is a replacement candidate too: `p:x` with `x` in the table becomes `p` plus the glyph. |
| Emoji.SourceExamples | src/emoji.rs:44-51 | The six cases of the unit test hold for every table that has `heart` but neither the empty name nor `sdfsdfsdfs`. |
| Emoji.AdjacentShortcodes | src/emoji.rs:18-33 | `p:h::h:q` becomes `p`, glyph, glyph, `q`: the empty part after the first replacement is consumed. |
| Strings.JoinSplit | src/emoji.rs:12 | Joining the parts of a split on `:` gives back the original text. |
| Strings.SplitJoin | src/emoji.rs:12 | Splitting a join of separator-free parts gives back the parts. |
| HtmlText.HtmlToTextIsTextContent | src/webhook_request.rs:101-115 | The filtered walk over the parsed tree keeps the text of the text nodes in document order and drops all markup. The result is the tree's structural text content. |
| HtmlText.SampleTreeText | src/webhook_request.rs:160-182 | The tree for the test markup reduces to `Hello world! aa bb`. |
| WebhookRequest.Deserialize | src/webhook_request.rs:7-48 | A payload is accepted exactly when it is well-formed. `text` and `format` are required. `format` reads as its variant, written either as a string or as a one-entry object whose value is `null`. `emoji` reads as its flag, and as true when absent. `msgtype` reads as its variant in either form, and as `regular` when absent. `displayName`, `avatarUrl`, `icon_url` and `username` each fill their own field, with absent or `null` read as none. |
| WebhookRequest.UnitObjectVariant | src/webhook_request.rs:25-38 | `format` and `msgtype` written as one-entry objects with a `null` value, `{"html": null}` and `{"notice": null}`, read as those variants. |
| WebhookRequest.DeserializeSerialize | src/webhook_request.rs:7-38 | Every payload value survives being written as JSON and read back. |
| WebhookRequest.BasicPayloadDefaults | src/webhook_request.rs:124-146 | The first unit test's JSON reads as the expected value, with the defaults filled in. |
| WebhookRequest.ParseText | src/webhook_request.rs:93-99 | The text is emoji-substituted when `emoji` is true and unchanged otherwise. |
| WebhookRequest.CreateMessage | src/webhook_request.rs:51-68 | The kind follows the msgtype. A plain message's body is the parsed text, with no formatted part. An HTML message's formatted body is the parsed text under `org.matrix.custom.html`, and its body is the text content of that markup. |
| WebhookRequest.ShapeDeterminesCase | src/webhook_request.rs:56-67 | Content kind and presence of a formatted part determine the (msgtype, format) pair, so the six cases are distinct. |
| WebhookRequest.EmojiBeforeReduction | src/webhook_request.rs:55-66 | For HTML with emoji, the body is the text content of the substituted markup, and the formatted body is the substituted markup. |
| WebhookRequest.DisplayName | src/webhook_request.rs:70-83 | The name is `displayName`, else `username`, else `Incoming Webhook`. It is emoji-substituted exactly when `emoji` is true. |
| WebhookRequest.AvatarUrl | src/webhook_request.rs:85-91 | The URL is `avatarUrl`, else `icon_url`, else none. |
| WebhookRequest.SampleMarkupMessage | src/webhook_request.rs:159-243 | The sample markup, under any msgtype, gives the matching kind, body `Hello world! aa bb`, and the markup verbatim as the HTML body. |
| WebhookRequest.EmojiInMarkup | src/webhook_request.rs:245-273 | Shortcodes inside markup are substituted in the formatted body. The plain body is `foo`, two glyphs, then ` aa bb`, so substitution happens before the markup is reduced to text. The display name's trailing shortcode is substituted. |
| WebhookRequest.SlackStylePayload | src/webhook_request.rs:275-292 | `username` and `icon_url` stand in for the missing `displayName` and `avatarUrl`. |
| WebhookStore.CreateWebhook | src/store.rs:37-54 | Success exactly when the connection is available and the id is new. The record carries the given room and user, no label, and the 32-character id. The table gains exactly that entry, nothing else changes, and keying stays valid. A duplicate id fails with the primary-key error. |
| WebhookStore.GetWebhookById | src/store.rs:56-64 | An absent id yields `Ok(None)`, not an error. A present id yields its record. The lookup does not change the table. |
| WebhookStore.CreateThenGet | src/store.rs:69-77 | Looking up the returned id after a creation yields the record that was created. |
| WebhookStore.CreateKeepsOtherLookups | src/store.rs:46-63 | A creation leaves every lookup of another id as it was. |
| Identity.BotLocalpart | src/webhook.rs:66-69 | The localpart is the base, `__`, and 32 lower-case hex digits that decode to the first 16 digest bytes. |
| Identity.DecodeEncode | src/webhook.rs:68 | Hex decoding inverts hex encoding. |
| Identity.EncodeInjective | src/webhook.rs:68 | Different byte strings have different hex encodings. |
| Identity.LocalpartsSeparateDigests | src/webhook.rs:66-69 | Webhooks whose digests differ in their first 16 bytes get different localparts. |
| Webhook.HandlerInner | src/webhook.rs:51-107 | The delivery only appends to the log and never shrinks the joins. The table is unchanged and validity is kept. An unknown id fails with `Could not find webhook`, with no effect. A failure before the sync has no effect. Success means the poster is joined to the webhook's room and the last event is the message from `create_message`, sent as the poster. A failure sends nothing. For a poster already in the room, no join is added and every new event is a send. |
| Webhook.JoinRoom | src/webhook.rs:83-100 | The handshake succeeds exactly when these all hold: the bot client is available, the primary bot is in the room, the poster's id can be built, and the invite and the join succeed. It then appends the invite and then the join. Without the primary bot it changes nothing. |
| Webhook.UnknownWebhookHasNoEffect | src/webhook.rs:59-62 | An unknown id fails with `Could not find webhook` before any registration, invite, join or send. |
| Webhook.JoinedPosterOnlySends | src/webhook.rs:82-104 | A poster already in the room goes straight to the send, whatever its outcome: a successful send appends only the message, and a failed one leaves the host unchanged and reports the send's error. No invite or join happens either way. |
| Webhook.NewPosterInvitedThenJoinsThenSends | src/webhook.rs:83-104 | A poster not yet in the room is invited by the primary bot, then joins, then sends, in that order. |
| Webhook.PrimaryBotAbsentFails | src/webhook.rs:84-89 | If an invite is needed but the primary bot is not in the room, delivery fails with `Couldn't get joined room from bot`, with no effect. |
| Webhook.Handler | src/webhook.rs:22-49 | The handler never rejects. Success becomes 200 with `success` true. Any error becomes 500 with `success` false and the error text. |
| Webhook.ReplyReportsDelivery | src/webhook.rs:35-48 | The reply says success exactly when the status is 200 and exactly when a message was sent. |
| Webhook.UnknownWebhookReply | src/webhook.rs:27-48 | An unknown id is answered with 500 and `Could not find webhook`. |
| Bot.FindAdminRoom | src/bot.rs:267-308 | The scan returns the first room in enumeration order that is private, has readable members, has at most two members and contains the counterparty. When it returns nothing, no room qualifies. |
| Bot.GetOrCreateAdminRoom | src/bot.rs:263-315 | The first qualifying room is used as it is. Otherwise the bot creates a room whose invite list is exactly the counterparty and whose preset is private chat. A refused creation is an error with no effect. |
| Bot.IneligibleRoomsAreSkipped | src/bot.rs:268-291 | Public rooms, rooms whose members could not be read, and rooms with more than two members are skipped without error, which leads to creating a room. |
| Bot.FirstMatchIgnoresLaterRooms | src/bot.rs:267-302 | The room the scan picks does not depend on the rooms after it. |
| Bot.HookUrl | src/bot.rs:150-153 | The advertised URL is the configured base, `api/v1/matrix/hook/`, then the id. |
| Bot.HandleRoomMessageInner | src/bot.rs:112-203 | Anything but a text message starting with `!webhook` returns Ok with no effect. On success, the admin room was found or created and the bot is in it. The webhook for the message's room and sender is stored, its URL is sent to the admin room, and the notice goes to the requesting room only when the bot is joined there. The table only ever gains that webhook. Once the bot's client is available and an admin room is found or created, the command succeeds exactly when the store insert, the admin-room send and, for a joined requesting room, the notice succeed: a found room is always one the bot is in. The table changes only when the client, the admin room, the connection and a fresh id were all available: any failure before the insert stores nothing. |
| Bot.PublishHook | src/bot.rs:146-202 | The webhook is stored before anything is sent. A failed admin-room send leaves the stored webhook in place and reports `Failed to send admin room message`. A failed insert, from no connection or a duplicate id, leaves the host unchanged. |
| Bot.Announce | src/bot.rs:155-201 | Only messages are appended: the instructions to the admin room, then the notice when the bot is joined to the requesting room. It succeeds exactly when the admin send and, for a joined requesting room, the notice send succeed. |
| Bot.SendFailureKeepsWebhook | src/bot.rs:146-189 | A command whose admin-room send fails still leaves the new webhook stored. |
| Bot.HandleRoomMessage | src/bot.rs:53-71 | The message handler reports success whatever the inner result, keeping the inner effects. |
| Bot.HandleRoomMemberInner | src/bot.rs:205-236 | The bot joins a room exactly when three things hold: it is invited to it, the state key parses to its own user id, and the client and the join succeed. Non-invites and unparsable state keys are ignored without error. |
| Bot.OtherInviteesIgnored | src/bot.rs:214-224 | An invite for any other user changes nothing and is not an error. |
| Bot.HandleRoomMember | src/bot.rs:33-51 | The membership handler reports success whatever the inner result. |
| Bot.RegisterBot | src/bot.rs:73-110 | Registration succeeds exactly when three things hold: register, client and display name succeed, and, if the avatar was downloaded, the current avatar could be read and any needed upload succeeded. The avatar changes only to the downloaded one, and only when there was none or its bytes differ. A failed download leaves the avatar alone and is not an error. |
| Bot.RegisterBotIdempotent | src/bot.rs:88-98 | Repeating a successful registration with the same avatar uploads nothing and leaves the profile as it was. |
| Cli.Validate | src/main.rs:58-86 | In generate mode, validation succeeds exactly when `--url` is given. In run mode, it succeeds exactly when the database path and the port are given and `--localpart` and `--url` are not. |
| Cli.ValidateReportsFirstProblem | src/main.rs:60-85 | Validation succeeds exactly when the ordered list of problems is empty, and otherwise reports the first of them. |
| Cli.RunModePrecedence | src/main.rs:66-82 | In run mode, a missing database path is reported first, then a missing port. |
| Cli.GenerateRegistration | src/main.rs:89-113 | The sender localpart is the command-line one if given, else the configured one. The registration claims only the exclusive user namespace `@_webhook.*`, sets `rate_limited` to false, and takes its id and tokens from fresh UUIDs. |
| Cli.NamespaceCoversPosters | src/main.rs:94-97 | With a bot localpart starting `_webhook`, the claimed namespace covers the bot and every per-webhook poster. |
| Cli.MatchHookRoute | src/main.rs:154-156 | Only a POST with the four literal segments and a non-empty id segment is routed, and the id contains no `/`. |
| Cli.RouteMatchesAdvertisedPath | src/main.rs:154-155 | The route accepts the advertised hook path of every non-empty id without `/`, with that id. Every path it accepts is the hook path of the id it extracts. |
| Cli.GeneratedIdsAreRoutable | src/main.rs:154-155 | The URL advertised for every generated 32-character id reaches that id. |

## Left out

- Homeserver and appservice calls are outcome parameters, with their effects as host-state updates. These are: register, client, display name, avatar read and upload, invite, join, one-off sync, send and room creation. Wire formats, retries and library behaviour are not modelled.
- `download_avatar` (HTTP fetch, Content-Type and MIME parsing) is not modelled. Its result is an input to `Bot.RegisterBot`.
- SHA-256, the random webhook id and the UUIDs of the registration are parameters. Dafny has no implementation of them, and the random draws are nondeterministic.
- The HTML5 parser is a parameter. The source walks the parser's node arena in creation order, which the model takes to be document order.
- The contents of the emoji table file are not shown; the table is a parameter.
- The configuration file reader and its structure declarations are not modelled: they only declare and load data.
- `main()` is not modelled: server start-up, graceful shutdown, event-handler registration and signal handling are runtime wiring.
- Delivery does not model the wiring into `register_bot`. As written, it passes optional values where plain strings are expected, so `Webhook.HandlerInner` takes the registration's outcome as one parameter. The display-name and avatar precedence functions are not connected to delivery.
- Concurrent deliveries and the database's pool concurrency are not modelled.
- Logging is not modelled.
- WebhookRequest.Deserialize: a JSON object is a map, so two inputs the decoder sees are not expressible: an object with a duplicate key, which the decoder rejects, and the payload written as a JSON array of the fields in declaration order, which the derived decoder accepts. The contract states acceptance and the values read, but not the wording of the decoder's error messages. It also does not state which error is reported when several fields are bad, because that depends on key order in the text and a map loses it. Numbers, arrays and every object other than a one-entry object with a `null` value collapse into one JSON value kind that no field accepts.
- Webhook.HandlerInner: the library's local view of joined rooms is modelled by the host's join set. Its lag behind the homeserver is not modelled.
- Bot.HandleRoomMessageInner: the scanned rooms are required to be in the host's join set, because the source scans the client's own joined rooms. So a found admin room never gives the not-joined error. A room the bot has just created counts as joined at once. In the source, its client's cache may not list the room yet, which gives the `Failed to get the room that we should be inside` error.
- Cli.MatchHookRoute: takes the request path without its leading `/`. It does not model percent-decoding or the web framework's handling of trailing slashes. The advertised URL reaches the route only when the configured base ends with `/`.
- WebhookStore.IsRandomId: the id generator is not part of this model. The model assumes it yields 32 characters from the ASCII letters and digits, which is what `CreateWebhook` requires and what `Cli.GeneratedIdsAreRoutable` relies on (no id contains `/`).
- WebhookStore.CreateWebhook: a duplicate id fails with an error that stands for the database's duplicate-key error. Its wording is the database driver's and is not modelled; the bridge only logs it.
- Host: users the bridge acts as are named by localpart. Building and parsing full Matrix ids are parameters.

=== FILE: base.dfy ===
/** Failure-carrying values shared by every part of the bridge.

    The bridge is written against an error type that carries only a
    human-readable message (every fallible step returns a result whose error
    is shown to users or logged as text), so `Result` here carries a
    `string` error.
 */
module Base {

  /** An optional value. */
  datatype Option<+T> = None | Some(value: T) {

    /** The value if present, otherwise `default`. */
    function GetOr(default: T): T {
      match this
      case Some(v) => v
      case None => default
    }
  }

  /** The outcome of a fallible step: a value, or a textual error. */
  datatype Result<+T> = Ok(value: T) | Err(error: string) {

    predicate IsFailure() {
      Err?
    }

    function PropagateFailure<U>(): Result<U>
      requires Err?
    {
      Err(error)
    }

    function Extract(): T
      requires Ok?
    {
      value
    }
  }

  /** The outcome of a host call that yields nothing but success or failure. */
  type Outcome = Result<()>

  /** A successful host call. */
  const Pass: Outcome := Ok(())
}

=== FILE: bot.dfy ===
/** The primary bot's decisions: the `!webhook` command, the choice of the
    admin room, the invite handler and the bot's registration.

    Host calls (obtaining a client, creating a room, sending, joining,
    registering, reading and uploading the avatar) are outcome parameters.
    Where a call's failure is wrapped with a context message, the error the
    model reports is that message.
 */
module Bot {
  import opened Base
  import opened Host
  import WebhookStore
  import WebhookRequest
  import Identity

  // ---------------------------------------------------------------------
  // Admin room
  // ---------------------------------------------------------------------

  /** What the bot's client knows about one of its joined rooms; the member
      list is fetched from the local cache and the fetch can fail. */
  datatype RoomView = RoomView(id: string, isPublic: bool, members: Result<seq<UserId>>)

  /** The most members an admin room may have: the bot and its counterparty. */
  const MaxAdminMembers: nat := 2

  /** A private room with at most two members, one of them `counterparty`. */
  predicate Eligible(room: RoomView, counterparty: UserId)
  {
    && !room.isPublic
    && room.members.Ok?
    && |room.members.value| <= MaxAdminMembers
    && counterparty in room.members.value
  }

  /** The index of the first eligible room at or after `from`, scanning in
      enumeration order and skipping every other room. */
  function FindAdminRoom(rooms: seq<RoomView>, counterparty: UserId, from: nat): (r: Option<nat>)
    requires from <= |rooms|
    ensures r.Some? ==>
      && from <= r.value < |rooms|
      && Eligible(rooms[r.value], counterparty)
      && forall j :: from <= j < r.value ==> !Eligible(rooms[j], counterparty)
    ensures r.None? ==> forall j :: from <= j < |rooms| ==> !Eligible(rooms[j], counterparty)
    decreases |rooms| - from
  {
    if from == |rooms| then None
    else
      var room := rooms[from];
      if room.isPublic then FindAdminRoom(rooms, counterparty, from + 1)
      else if room.members.Err? then FindAdminRoom(rooms, counterparty, from + 1)
      else if |room.members.value| > MaxAdminMembers then FindAdminRoom(rooms, counterparty, from + 1)
      else if counterparty in room.members.value then Some(from)
      else FindAdminRoom(rooms, counterparty, from + 1)
  }

  /** `get_or_create_admin_room`: the first eligible joined room, or else a
      new private chat created by the bot with exactly the counterparty
      invited. `created` is the id the homeserver assigns, or its refusal. */
  function GetOrCreateAdminRoom(h: Host, cfg: Config, rooms: seq<RoomView>, counterparty: UserId,
                                created: Result<string>): (r: (Host, Result<string>))
    ensures Extends(h, r.0) && r.0.store == h.store
    ensures Valid(h) ==> Valid(r.0)
    ensures FindAdminRoom(rooms, counterparty, 0).Some? ==>
      r == (h, Ok(rooms[FindAdminRoom(rooms, counterparty, 0).value].id))
    ensures FindAdminRoom(rooms, counterparty, 0).None? ==>
      && (created.Err? ==> r == (h, Err(created.error)))
      && (created.Ok? ==>
           r == (Host(h.store, h.joined + {(cfg.botLocalpart, created.value)},
                      h.log + [RoomCreated(cfg.botLocalpart, created.value, [counterparty], PrivateChat)]),
                 Ok(created.value)))
    ensures ScansJoinedRooms(h, cfg, rooms) && r.1.Ok? ==> (cfg.botLocalpart, r.1.value) in r.0.joined
  {
    var found := FindAdminRoom(rooms, counterparty, 0);
    if found.Some? then (h, Ok(rooms[found.value].id))
    else if created.Err? then (h, Err(created.error))
    else
      var room := created.value;
      (Host(h.store, h.joined + {(cfg.botLocalpart, room)},
            h.log + [RoomCreated(cfg.botLocalpart, room, [counterparty], PrivateChat)]), Ok(room))
  }

  /** The scanned rooms are the bot client's own joined rooms, so each of
      them is in the host's join set for the bot. */
  predicate ScansJoinedRooms(h: Host, cfg: Config, rooms: seq<RoomView>)
  {
    forall j :: 0 <= j < |rooms| ==> (cfg.botLocalpart, rooms[j].id) in h.joined
  }

  /** Public rooms, rooms whose members could not be read and rooms with
      more than two members never become the admin room, and skipping them
      is never an error: a listing made only of such rooms leads to
      creating a room. */
  lemma IneligibleRoomsAreSkipped(h: Host, cfg: Config, rooms: seq<RoomView>,
                                  counterparty: UserId, created: Result<string>)
    requires forall j :: 0 <= j < |rooms| ==>
      rooms[j].isPublic || rooms[j].members.Err? || |rooms[j].members.value| > MaxAdminMembers
    ensures FindAdminRoom(rooms, counterparty, 0) == None
    ensures created.Ok? ==> GetOrCreateAdminRoom(h, cfg, rooms, counterparty, created).1 == created
  {
  }

  /** A room found by the scan is the same whatever rooms follow it. */
  lemma {:induction false} FirstMatchIgnoresLaterRooms(rooms: seq<RoomView>, later: seq<RoomView>,
                                                       counterparty: UserId, from: nat)
    requires from <= |rooms|
    requires FindAdminRoom(rooms, counterparty, from).Some?
    ensures FindAdminRoom(rooms + later, counterparty, from) == FindAdminRoom(rooms, counterparty, from)
    decreases |rooms| - from
  {
    var all := rooms + later;
    assert all[from] == rooms[from];
    if !Eligible(rooms[from], counterparty) {
      FirstMatchIgnoresLaterRooms(rooms, later, counterparty, from + 1);
    }
  }

  // ---------------------------------------------------------------------
  // The `!webhook` command
  // ---------------------------------------------------------------------

  /** The content of a room message as far as the command filter looks. */
  datatype MessageBody = TextBody(body: string) | OtherBody

  /** The bot's own membership of the room a message arrived in. */
  datatype RoomState = JoinedRoom | InvitedRoom | LeftRoom

  /** A message event in a room the bot sees. */
  datatype RoomMessage = RoomMessage(sender: UserId, room: string, roomState: RoomState, content: MessageBody)

  const CommandPrefix: string := "!webhook"

  /** Only a text message whose body starts with `!webhook` is a command. */
  predicate IsWebhookCommand(content: MessageBody)
  {
    content.TextBody? && CommandPrefix <= content.body
  }

  /** The path under which hooks are served, relative to the public base. */
  const HookPath: string := "api/v1/matrix/hook/"

  /** The URL advertised for webhook `id`. */
  function HookUrl(base: string, id: string): (r: string)
    ensures |r| == |base| + |HookPath| + |id|
    ensures r[..|base|] == base
    ensures r[|base|..|base| + |HookPath|] == HookPath
    ensures r[|base| + |HookPath|..] == id
  {
    base + HookPath + id
  }

  /** `HookPath` spelt out character by character. */
  lemma LiteralHookPath()
    ensures "api" + "/" + "v1" + "/" + "matrix" + "/" + "hook" + "/" == HookPath
  {
  }

  /** The plain-text instructions sent to the admin room. */
  function PlainInstructions(url: string, avatarUrl: string): string
  {
    "\nHere's your webhook url: " + url + "\n"
    + "To send a message, POST the following JSON to that URL:\n"
    + "{\n"
    + "  \"text\": \"Hello world!\",\n"
    + "  \"format\": \"plain\",\n"
    + "  \"displayName\": \"My Cool Webhook\",\n"
    + "  \"avatarUrl\": \"" + avatarUrl + "\"\n"
    + "}\n"
  }

  /** The HTML instructions sent to the admin room. */
  function HtmlInstructions(url: string, avatarUrl: string): string
  {
    "Here's your webhook url: <a href=\"" + url + "\">" + url + "</a><br>\n"
    + "To send a message, POST the following JSON to that URL:\n"
    + "<pre><code>{\n"
    + "  \"text\": \"Hello world!\",\n"
    + "  \"format\": \"plain\",\n"
    + "  \"displayName\": \"My Cool Webhook\",\n"
    + "  \"avatarUrl\": \"" + avatarUrl + "\"\n"
    + "}</code></pre>\n"
  }

  /** The notice carrying the new hook's URL. */
  function AdminNotice(url: string, avatarUrl: string): WebhookRequest.MessageContent
  {
    WebhookRequest.MessageContent(
      WebhookRequest.MNotice, PlainInstructions(url, avatarUrl),
      Some(WebhookRequest.FormattedBody(WebhookRequest.HtmlFormat, HtmlInstructions(url, avatarUrl))))
  }

  const PrivateMessageNotice: string := "I've sent you a private message with your hook information"

  /** The notice telling the requesting room to look at the admin room. */
  function RoomNotice(): WebhookRequest.MessageContent
  {
    WebhookRequest.MessageContent(WebhookRequest.MNotice, PrivateMessageNotice, None)
  }

  const AdminRoomFailed: string := "Failed to get or create admin room"
  const AdminRoomNotJoined: string := "Failed to get the room that we should be inside"
  const AdminSendFailed: string := "Failed to send admin room message"
  const RoomNoticeFailed: string := "Failed to send private message notification"

  /** Outcomes of the host calls the command makes, in call order. */
  datatype CommandEnv = CommandEnv(
    /** obtaining the bot's client */
    botClient: Outcome,
    /** the bot's joined rooms, in enumeration order */
    rooms: seq<RoomView>,
    /** the room the homeserver creates if no admin room exists */
    created: Result<string>,
    /** acquiring a store connection */
    conn: Outcome,
    /** the random id drawn for the new webhook */
    drawnId: string,
    /** sending the instructions to the admin room */
    adminSend: Outcome,
    /** sending the notice to the requesting room */
    roomSend: Outcome)

  /** The record the command stores for a message. */
  function NewHook(msg: RoomMessage, id: string): WebhookStore.Webhook
  {
    WebhookStore.Webhook(id, msg.room, UserIdText(msg.sender), None)
  }

  /** `handle_room_message_inner`: a `!webhook` command creates a webhook for
      the room it was sent in, sends its URL to the sender's admin room and,
      when the bot is joined to the requesting room, says so there. */
  function HandleRoomMessageInner(h: Host, cfg: Config, env: CommandEnv, msg: RoomMessage)
    : (r: (Host, Outcome))
    requires WebhookStore.IsRandomId(env.drawnId)
    requires ScansJoinedRooms(h, cfg, env.rooms)
    ensures !IsWebhookCommand(msg.content) ==> r == (h, Pass)
    ensures Extends(h, r.0)
    ensures Valid(h) ==> Valid(r.0)
    ensures r.0.store == h.store || r.0.store == h.store[env.drawnId := NewHook(msg, env.drawnId)]
    ensures r.1.Ok? && IsWebhookCommand(msg.content) ==>
      var (h1, admin) := GetOrCreateAdminRoom(h, cfg, env.rooms, msg.sender, env.created);
      && env.botClient.Ok? && admin.Ok? && (cfg.botLocalpart, admin.value) in h1.joined
      && Published(h1, cfg, env, msg, admin.value, r.0)
    ensures IsWebhookCommand(msg.content) && env.botClient.Ok?
            && (FindAdminRoom(env.rooms, msg.sender, 0).Some? || env.created.Ok?) ==>
      (r.1.Ok? <==> && env.conn.Ok? && env.drawnId !in h.store && env.adminSend.Ok?
                    && (msg.roomState == JoinedRoom ==> env.roomSend.Ok?))
    ensures r.0.store != h.store ==>
      var (h1, admin) := GetOrCreateAdminRoom(h, cfg, env.rooms, msg.sender, env.created);
      && IsWebhookCommand(msg.content) && env.botClient.Ok? && admin.Ok?
      && (cfg.botLocalpart, admin.value) in h1.joined
      && env.conn.Ok? && env.drawnId !in h.store
  {
    if !IsWebhookCommand(msg.content) then (h, Pass)
    else if env.botClient.Err? then (h, Err(env.botClient.error))
    else
      var (h1, admin) := GetOrCreateAdminRoom(h, cfg, env.rooms, msg.sender, env.created);
      if admin.Err? then (h1, Err(AdminRoomFailed))
      else if (cfg.botLocalpart, admin.value) !in h1.joined then (h1, Err(AdminRoomNotJoined))
      else PublishHook(h1, cfg, env, msg, admin.value)
  }

  /** `h'` is `h` with the new webhook stored, its instructions sent to the
      admin room and, when the bot is joined to the requesting room, the
      notice sent there. */
  predicate Published(h: Host, cfg: Config, env: CommandEnv, msg: RoomMessage, admin: string, h': Host)
  {
    && env.drawnId !in h.store
    && h'.store == h.store[env.drawnId := NewHook(msg, env.drawnId)]
    && h'.joined == h.joined
    && h'.log == h.log
       + [Sent(cfg.botLocalpart, admin, AdminNotice(HookUrl(cfg.hookUrlBase, env.drawnId), cfg.avatarUrl))]
       + (if msg.roomState == JoinedRoom then [Sent(cfg.botLocalpart, msg.room, RoomNotice())] else [])
  }

  /** The steps of the command once the admin room is known: store the
      webhook, then announce it. */
  function PublishHook(h: Host, cfg: Config, env: CommandEnv, msg: RoomMessage, admin: string)
    : (r: (Host, Outcome))
    requires WebhookStore.IsRandomId(env.drawnId)
    ensures Extends(h, r.0)
    ensures Valid(h) ==> Valid(r.0)
    ensures r.0.store == h.store || r.0.store == h.store[env.drawnId := NewHook(msg, env.drawnId)]
    ensures r.1.Ok? ==> Published(h, cfg, env, msg, admin, r.0)
    ensures r.1.Ok? <==> && env.conn.Ok? && env.drawnId !in h.store && env.adminSend.Ok?
                         && (msg.roomState == JoinedRoom ==> env.roomSend.Ok?)
    ensures env.conn.Err? || env.drawnId in h.store ==> r.0 == h
    ensures env.conn.Ok? && env.drawnId !in h.store && env.adminSend.Err? ==>
      r == (h.(store := h.store[env.drawnId := NewHook(msg, env.drawnId)]), Err(AdminSendFailed))
  {
    var created := WebhookStore.CreateWebhook(h.store, msg.room, UserIdText(msg.sender),
                                              env.drawnId, env.conn);
    if created.Err? then (h, Err(created.error))
    else
      var (store, hook) := created.value;
      assert hook == NewHook(msg, env.drawnId);
      Announce(h.(store := store), cfg, env, msg, admin, HookUrl(cfg.hookUrlBase, hook.id))
  }

  /** Sends the hook's URL to the admin room, then, when the bot is joined
      to the requesting room, the notice there. */
  function Announce(h: Host, cfg: Config, env: CommandEnv, msg: RoomMessage, admin: string, url: string)
    : (r: (Host, Outcome))
    ensures r.0.store == h.store && r.0.joined == h.joined
    ensures |h.log| <= |r.0.log| && r.0.log[..|h.log|] == h.log
    ensures env.adminSend.Err? ==> r == (h, Err(AdminSendFailed))
    ensures r.1.Ok? <==> env.adminSend.Ok? && (msg.roomState == JoinedRoom ==> env.roomSend.Ok?)
    ensures r.1.Ok? ==>
      r.0.log == h.log + [Sent(cfg.botLocalpart, admin, AdminNotice(url, cfg.avatarUrl))]
                 + (if msg.roomState == JoinedRoom then [Sent(cfg.botLocalpart, msg.room, RoomNotice())] else [])
    ensures Valid(h) ==> Valid(r.0)
  {
    if env.adminSend.Err? then (h, Err(AdminSendFailed))
    else
      var h1 := h.(log := h.log + [Sent(cfg.botLocalpart, admin, AdminNotice(url, cfg.avatarUrl))]);
      if msg.roomState != JoinedRoom then (h1, Pass)
      else if env.roomSend.Err? then (h1, Err(RoomNoticeFailed))
      else (h1.(log := h1.log + [Sent(cfg.botLocalpart, msg.room, RoomNotice())]), Pass)
  }

  /** The webhook is stored before the instructions are sent, so a failed
      send leaves the new webhook in place. */
  lemma SendFailureKeepsWebhook(h: Host, cfg: Config, env: CommandEnv, msg: RoomMessage)
    requires WebhookStore.IsRandomId(env.drawnId)
    requires IsWebhookCommand(msg.content) && env.botClient.Ok? && env.conn.Ok?
    requires env.drawnId !in h.store && env.adminSend.Err?
    requires ScansJoinedRooms(h, cfg, env.rooms)
    requires FindAdminRoom(env.rooms, msg.sender, 0).Some? || env.created.Ok?
    ensures var r := HandleRoomMessageInner(h, cfg, env, msg);
      r.1 == Err(AdminSendFailed) && r.0.store == h.store[env.drawnId := NewHook(msg, env.drawnId)]
  {
  }

  /** `handle_room_message`: whatever happens inside, the event handler
      reports success; a failure is only logged. */
  function HandleRoomMessage(h: Host, cfg: Config, env: CommandEnv, msg: RoomMessage)
    : (r: (Host, Outcome))
    requires WebhookStore.IsRandomId(env.drawnId)
    requires ScansJoinedRooms(h, cfg, env.rooms)
    ensures r.1 == Pass
    ensures r.0 == HandleRoomMessageInner(h, cfg, env, msg).0
  {
    var (h', _) := HandleRoomMessageInner(h, cfg, env, msg);
    (h', Pass)
  }

  // ---------------------------------------------------------------------
  // Invites
  // ---------------------------------------------------------------------

  /** Room membership states. */
  datatype Membership = Invite | Join | Leave | Ban | Knock

  /** A membership event: `stateKey` is the user id whose membership it
      sets. */
  datatype MemberEvent = MemberEvent(room: string, membership: Membership, stateKey: string)

  /** Outcomes of the host calls the invite handler makes, in call order. */
  datatype MemberEnv = MemberEnv(botClient: Outcome, join: Outcome)

  /** The event invites the primary bot itself: it is an invite, its state
      key parses as a user id, and that id is the bot's own. */
  predicate InvitesBot(cfg: Config, names: Names, ev: MemberEvent)
  {
    && ev.membership == Invite
    && names.parseUserId(ev.stateKey).Ok?
    && names.qualify(cfg.botLocalpart, cfg.domain).Ok?
    && names.parseUserId(ev.stateKey).value == names.qualify(cfg.botLocalpart, cfg.domain).value
  }

  /** `handle_room_member_inner`: the bot joins a room exactly when it is
      itself invited to it; every other membership event is ignored. */
  function HandleRoomMemberInner(h: Host, cfg: Config, names: Names, env: MemberEnv, ev: MemberEvent)
    : (r: (Host, Outcome))
    ensures Valid(h) ==> Valid(r.0)
    ensures r.0 == h || r.0 == Host(h.store, h.joined + {(cfg.botLocalpart, ev.room)},
                                     h.log + [Joined(cfg.botLocalpart, ev.room)])
    ensures r.0 != h <==> InvitesBot(cfg, names, ev) && env.botClient.Ok? && env.join.Ok?
    ensures r.1.Err? ==> r.0 == h
    ensures ev.membership != Invite ==> r == (h, Pass)
    ensures ev.membership == Invite && names.parseUserId(ev.stateKey).Err? ==> r == (h, Pass)
    ensures InvitesBot(cfg, names, ev) ==> (r.1.Ok? <==> env.botClient.Ok? && env.join.Ok?)
  {
    if ev.membership != Invite then (h, Pass)
    else
      var target := names.parseUserId(ev.stateKey);
      if target.Err? then (h, Pass)
      else
        var bot := names.qualify(cfg.botLocalpart, cfg.domain);
        if bot.Err? then (h, Err(bot.error))
        else if target.value != bot.value then (h, Pass)
        else if env.botClient.Err? then (h, Err(env.botClient.error))
        else if env.join.Err? then (h, Err(env.join.error))
        else (Host(h.store, h.joined + {(cfg.botLocalpart, ev.room)},
                   h.log + [Joined(cfg.botLocalpart, ev.room)]), Pass)
  }

  /** An invite for any other user changes nothing and is not an error. */
  lemma OtherInviteesIgnored(h: Host, cfg: Config, names: Names, env: MemberEnv, ev: MemberEvent)
    requires ev.membership == Invite && names.parseUserId(ev.stateKey).Ok?
    requires names.qualify(cfg.botLocalpart, cfg.domain).Ok?
    requires names.parseUserId(ev.stateKey).value != names.qualify(cfg.botLocalpart, cfg.domain).value
    ensures HandleRoomMemberInner(h, cfg, names, env, ev) == (h, Pass)
  {
  }

  /** `handle_room_member`: the event handler always reports success. */
  function HandleRoomMember(h: Host, cfg: Config, names: Names, env: MemberEnv, ev: MemberEvent)
    : (r: (Host, Outcome))
    ensures r.1 == Pass
    ensures r.0 == HandleRoomMemberInner(h, cfg, names, env, ev).0
  {
    var (h', _) := HandleRoomMemberInner(h, cfg, names, env, ev);
    (h', Pass)
  }

  // ---------------------------------------------------------------------
  // Registration
  // ---------------------------------------------------------------------

  /** An avatar image: its MIME type and its bytes. */
  datatype Avatar = Avatar(mime: string, bytes: seq<Identity.byte>)

  /** The bot's profile on the homeserver. */
  datatype Profile = Profile(registered: bool, displayName: Option<string>, avatar: Option<Avatar>)

  /** Outcomes of the host calls `register_bot` makes, in call order;
      `download` is the avatar fetched from the configured URL. */
  datatype RegisterEnv = RegisterEnv(
    register: Outcome,
    client: Outcome,
    setName: Outcome,
    download: Result<Avatar>,
    fetchAvatar: Outcome,
    upload: Outcome)

  const SetNameFailed: string := "Failed to set bot display name"
  const UploadFailed: string := "Failed to upload fetched avatar to homeserver"

  /** The fetched avatar differs from the current one (compared by bytes),
      or there is none yet. */
  predicate NeedsUpload(current: Option<Avatar>, fetched: Avatar)
  {
    current.None? || current.value.bytes != fetched.bytes
  }

  /** `register_bot`: registers the bot, sets its display name and, when the
      avatar could be downloaded, uploads it unless the homeserver already
      has those bytes. A failed download only warns; failing to read the
      current avatar or to upload is an error. */
  function RegisterBot(p: Profile, displayName: string, env: RegisterEnv): (r: (Profile, Outcome))
    ensures r.1.Ok? <==>
      && env.register.Ok? && env.client.Ok? && env.setName.Ok?
      && (env.download.Ok? ==>
            env.fetchAvatar.Ok? && (NeedsUpload(p.avatar, env.download.value) ==> env.upload.Ok?))
    ensures r.1.Ok? ==> r.0.registered && r.0.displayName == Some(displayName)
    ensures r.0.avatar != p.avatar ==>
      && env.download.Ok? && env.fetchAvatar.Ok? && NeedsUpload(p.avatar, env.download.value)
      && r.0.avatar == Some(env.download.value)
    ensures r.1.Ok? && env.download.Ok? ==>
      r.0.avatar.Some? && r.0.avatar.value.bytes == env.download.value.bytes
    ensures env.download.Err? ==> r.0.avatar == p.avatar
  {
    if env.register.Err? then (p, Err(env.register.error))
    else
      var p1 := p.(registered := true);
      if env.client.Err? then (p1, Err(env.client.error))
      else if env.setName.Err? then (p1, Err(SetNameFailed))
      else
        var p2 := p1.(displayName := Some(displayName));
        match env.download
        case Err(_) => (p2, Pass)
        case Ok(fetched) =>
          if env.fetchAvatar.Err? then (p2, Err(env.fetchAvatar.error))
          else if !NeedsUpload(p2.avatar, fetched) then (p2, Pass)
          else if env.upload.Err? then (p2, Err(UploadFailed))
          else (p2.(avatar := Some(fetched)), Pass)
  }

  /** Once a registration has succeeded, repeating it with the same avatar
      uploads nothing, so it succeeds even if an upload would fail, and
      leaves the profile as it was. */
  lemma RegisterBotIdempotent(p: Profile, displayName: string, env: RegisterEnv, again: RegisterEnv)
    requires RegisterBot(p, displayName, env).1.Ok?
    requires again.register.Ok? && again.client.Ok? && again.setName.Ok? && again.fetchAvatar.Ok?
    requires again.download == env.download
    ensures var p' := RegisterBot(p, displayName, env).0;
      RegisterBot(p', displayName, again) == (p', Pass)
  {
  }
}

=== FILE: cli.dfy ===
/** The command line: option validation, the appservice registration the
    bridge writes in generate mode, and the route the web server serves
    hooks on.
 */
module Cli {
  import opened Base
  import opened Strings
  import Bot
  import Host
  import Identity
  import WebhookStore

  // ---------------------------------------------------------------------
  // Options
  // ---------------------------------------------------------------------

  /** A TCP port number. */
  newtype u16 = x: int | 0 <= x < 0x1_0000

  /** The parsed command-line options. */
  datatype Opts = Opts(
    registrationFile: string,
    generateRegistration: bool,
    url: Option<string>,
    localpart: Option<string>,
    configFile: string,
    port: Option<u16>,
    databasePath: Option<string>)

  const UrlRequired: string := "Must specify --url when generating registration file (-r)"
  const DatabasePathRequired: string := "Must specify --database-path when running"
  const PortRequired: string := "Must specify --port when running"
  const LocalpartOnlyWhenGenerating: string :=
    "--localpart option is only valid when generating registration file (-r)"
  const UrlOnlyWhenGenerating: string :=
    "--url option is only valid when generating registration file (-r)"

  /** Every problem with the options, in the order they are checked. */
  function Problems(o: Opts): seq<string>
  {
    if o.generateRegistration then
      (if o.url.None? then [UrlRequired] else [])
    else
      (if o.databasePath.None? then [DatabasePathRequired] else [])
      + (if o.port.None? then [PortRequired] else [])
      + (if o.localpart.Some? then [LocalpartOnlyWhenGenerating] else [])
      + (if o.url.Some? then [UrlOnlyWhenGenerating] else [])
  }

  /** `Opts::validate`. Generating a registration needs `--url`; running
      needs a database path and a port and rejects `--localpart` and
      `--url`. */
  function Validate(o: Opts): (r: Outcome)
    ensures o.generateRegistration ==> (r.Ok? <==> o.url.Some?)
    ensures !o.generateRegistration ==>
      (r.Ok? <==> o.databasePath.Some? && o.port.Some? && o.localpart.None? && o.url.None?)
  {
    if o.generateRegistration then
      if o.url.None? then Err(UrlRequired) else Pass
    else if o.databasePath.None? then Err(DatabasePathRequired)
    else if o.port.None? then Err(PortRequired)
    else if o.localpart.Some? then Err(LocalpartOnlyWhenGenerating)
    else if o.url.Some? then Err(UrlOnlyWhenGenerating)
    else Pass
  }

  /** Validation reports the first problem in check order, and succeeds
      exactly when there is none. */
  lemma ValidateReportsFirstProblem(o: Opts)
    ensures Validate(o).Ok? <==> Problems(o) == []
    ensures Problems(o) != [] ==> Validate(o) == Err(Problems(o)[0])
  {
  }

  /** In run mode a missing database path is reported whatever else is
      wrong, and a missing port whatever is wrong besides it. */
  lemma RunModePrecedence(o: Opts)
    requires !o.generateRegistration
    ensures o.databasePath.None? ==> Validate(o) == Err(DatabasePathRequired)
    ensures o.databasePath.Some? && o.port.None? ==> Validate(o) == Err(PortRequired)
  {
  }

  // ---------------------------------------------------------------------
  // Registration
  // ---------------------------------------------------------------------

  /** A namespace an appservice claims; `exclusive` keeps other clients out. */
  datatype Namespace = Namespace(exclusive: bool, regex: string)

  /** The appservice registration written in generate mode. */
  datatype Registration = Registration(
    id: string,
    url: string,
    hsToken: string,
    asToken: string,
    senderLocalpart: string,
    users: seq<Namespace>,
    aliases: seq<Namespace>,
    rooms: seq<Namespace>,
    rateLimited: Option<bool>,
    protocols: Option<seq<string>>)

  /** Three fresh random UUIDs, drawn by the caller. */
  datatype Uuids = Uuids(id: string, hsToken: string, asToken: string)

  /** The user namespace the bridge claims. */
  const UserNamespace: string := "@_webhook.*"

  /** The literal prefix `UserNamespace` matches: it is that prefix followed
      by `.*`. */
  const UserNamespacePrefix: string := "@_webhook"

  /** A user id the claimed namespace matches from its start. */
  predicate InUserNamespace(userId: string)
  {
    UserNamespacePrefix <= userId
  }

  /** `generate_registration`. */
  function GenerateRegistration(configLocalpart: string, url: string, localpart: Option<string>,
                                uuids: Uuids): (r: Registration)
    ensures r.senderLocalpart == (if localpart.Some? then localpart.value else configLocalpart)
    ensures r.users == [Namespace(true, UserNamespace)] && r.aliases == [] && r.rooms == []
    ensures r.rateLimited == Some(false) && r.protocols == None
    ensures r.url == url
    ensures r.id == uuids.id && r.hsToken == uuids.hsToken && r.asToken == uuids.asToken
  {
    Registration(uuids.id, url, uuids.hsToken, uuids.asToken, localpart.GetOr(configLocalpart),
                 [Namespace(true, UserNamespace)], [], [], Some(false), None)
  }

  /** With a bot localpart that starts with `_webhook`, the exclusive user
      namespace covers the bot and every per-webhook poster, so no other
      client can register them. */
  lemma NamespaceCoversPosters(base: string, server: string, sha256: Identity.Hasher, webhookId: string)
    requires "_webhook" <= base
    ensures InUserNamespace(Host.UserIdText(Host.UserId(base, server)))
    ensures InUserNamespace(Host.UserIdText(
      Host.UserId(Identity.WebhookLocalpart(base, sha256, webhookId), server)))
  {
    var poster := Identity.WebhookLocalpart(base, sha256, webhookId);
    assert poster[..|base|] == base;
    assert "@" + poster + ":" + server == "@" + base + poster[|base|..] + ":" + server;
  }

  // ---------------------------------------------------------------------
  // The hook route
  // ---------------------------------------------------------------------

  /** HTTP request methods. */
  datatype Method = Get | Post | Put | Delete | OtherMethod

  /** The literal path segments of the hook route. */
  const RouteSegments: seq<string> := ["api", "v1", "matrix", "hook"]

  /** The hook route `POST api/v1/matrix/hook/{id}`: a request path (without
      its leading `/`) of exactly five segments, the first four literal and
      the fifth, the webhook id, not empty. */
  function MatchHookRoute(m: Method, path: string): (r: Option<string>)
    ensures r.Some? ==> m == Post && r.value != [] && '/' !in r.value
  {
    var segments := Split(path, '/');
    if m == Post && |segments| == 5 && segments[..4] == RouteSegments && segments[4] != [] then
      Some(segments[4])
    else None
  }

  /** The route path joined back together is the advertised hook path. */
  lemma HookPathSegments(id: string)
    ensures Join(RouteSegments + [id], '/') == Bot.HookPath + id
  {
    assert RouteSegments + [id] == ["api", "v1", "matrix", "hook", id];
    JoinFive("api", "v1", "matrix", "hook", id, '/');
    Bot.LiteralHookPath();
  }

  /** Five parts joined with a separator. */
  lemma JoinFive(a: string, b: string, c: string, d: string, e: string, sep: char)
    ensures Join([a, b, c, d, e], sep) == a + [sep] + b + [sep] + c + [sep] + d + [sep] + e
  {
    var t4 := Interleave([e], sep);
    assert t4 == [sep] + e + Interleave([], sep) by { assert [e][1..] == []; }
    assert t4 == [sep] + e;
    var t3 := Interleave([d, e], sep);
    assert t3 == [sep] + d + t4 by { assert [d, e][1..] == [e]; }
    var t2 := Interleave([c, d, e], sep);
    assert t2 == [sep] + c + t3 by { assert [c, d, e][1..] == [d, e]; }
    var t1 := Interleave([b, c, d, e], sep);
    assert t1 == [sep] + b + t2 by { assert [b, c, d, e][1..] == [c, d, e]; }
    assert [a, b, c, d, e][1..] == [b, c, d, e];
    assert Join([a, b, c, d, e], sep) == a + t1;
  }

  /** The server answers exactly the hook URLs it advertises: a POST to the
      hook path of an id without `/` is routed with that id, and any path the
      route accepts is the hook path of the id it extracts. */
  lemma RouteMatchesAdvertisedPath(m: Method, path: string, id: string)
    ensures id != [] && '/' !in id ==> MatchHookRoute(Post, Bot.HookPath + id) == Some(id)
    ensures MatchHookRoute(m, path) == Some(id) ==> path == Bot.HookPath + id
  {
    if id != [] && '/' !in id {
      var parts := RouteSegments + [id];
      assert forall i :: 0 <= i < |parts| ==> '/' !in parts[i] by {
        assert parts == ["api", "v1", "matrix", "hook", id];
      }
      HookPathSegments(id);
      SplitJoin(parts, '/');
      assert parts[..4] == RouteSegments;
    }
    if MatchHookRoute(m, path) == Some(id) {
      var segments := Split(path, '/');
      JoinSplit(path, '/');
      assert segments == RouteSegments + [id];
      HookPathSegments(id);
    }
  }

  /** Generated webhook ids are routable: every URL the bot hands out for a
      new webhook reaches that webhook. */
  lemma GeneratedIdsAreRoutable(id: string)
    requires WebhookStore.IsRandomId(id)
    ensures MatchHookRoute(Post, Bot.HookPath + id) == Some(id)
  {
    RouteMatchesAdvertisedPath(Post, Bot.HookPath + id, id);
  }
}

=== FILE: emoji.dfy ===
/** Emoji shortcode substitution (`replace_emoji`).

    The text is split on `:` and the parts are emitted left to right by a
    machine with a single flag, `skip`:
    - the first part is always emitted verbatim;
    - a part that follows a replaced part is emitted verbatim, without the
      colon that preceded it, and is not looked up;
    - any other part is looked up in the table: a known name is replaced by
      its glyph (its leading colon is dropped and `skip` is set), an unknown
      one is emitted with its leading colon restored.
    The source also tests `i == num_parts` to keep the last part verbatim,
    but the loop index never reaches `num_parts`, so the last part is a
    replacement candidate like any other; the model keeps that behaviour.
 */
module Emoji {
  import opened Strings

  /** The shortcode table: name (without colons) to glyph. */
  type Table = map<string, string>

  /** The output for the parts after the first, given the `skip` flag. */
  function Emit(table: Table, ps: seq<string>, skip: bool): string
  {
    if ps == [] then ""
    else if skip then ps[0] + Emit(table, ps[1..], false)
    else if ps[0] in table then table[ps[0]] + Emit(table, ps[1..], true)
    else ":" + ps[0] + Emit(table, ps[1..], false)
  }

  /** `replace_emoji`: substitutes known `:name:` shortcodes in `s`. */
  function ReplaceEmoji(table: Table, s: string): string
  {
    var parts := Split(s, ':');
    parts[0] + Emit(table, parts[1..], false)
  }

  /** Whether no part after the first names a table entry. */
  predicate NoCandidateMatches(table: Table, s: string)
  {
    var parts := Split(s, ':');
    forall i :: 1 <= i < |parts| ==> parts[i] !in table
  }

  /** `replace_emoji` as the source writes it: a loop over the parts with
      the `skip` flag, including the end-of-input test that never fires. */
  method ReplaceEmojiLoop(table: Table, s: string) returns (out: string)
    ensures out == ReplaceEmoji(table, s)
  {
    var parts := Split(s, ':');
    var numParts := |parts|;
    var skip := false;
    out := "";
    var i := 0;
    while i < numParts
      invariant 0 <= i <= numParts
      invariant i == 0 ==> out == "" && !skip
      invariant i >= 1 ==> out + Emit(table, parts[i..], skip) == ReplaceEmoji(table, s)
    {
      var part := parts[i];
      ghost var rest := parts[i + 1..];
      assert parts[i..] == [part] + rest;
      if i == 0 || i == numParts || skip {
        if i != 0 && !skip {
          out := out + ":";
        }
        out := out + part;
        skip := false;
      } else if part in table {
        assert Emit(table, parts[i..], false) == table[part] + Emit(table, rest, true);
        out := out + table[part];
        skip := true;
      } else {
        assert Emit(table, parts[i..], false) == ":" + part + Emit(table, rest, false);
        out := out + ":" + part;
      }
      i := i + 1;
    }
    assert parts[numParts..] == [];
  }

  /** With no part matching, every part after the first is re-emitted with
      its leading colon. */
  lemma {:induction false} EmitWithoutMatches(table: Table, ps: seq<string>)
    requires forall i :: 0 <= i < |ps| ==> ps[i] !in table
    ensures Emit(table, ps, false) == Interleave(ps, ':')
    decreases |ps|
  {
    if ps != [] {
      EmitWithoutMatches(table, ps[1..]);
    }
  }

  /** If no part after the first is a table key the text is unchanged. */
  lemma UnmatchedTextUnchanged(table: Table, s: string)
    requires NoCandidateMatches(table, s)
    ensures ReplaceEmoji(table, s) == s
  {
    var parts := Split(s, ':');
    EmitWithoutMatches(table, parts[1..]);
    JoinSplit(s, ':');
  }

  /** A text without colons is returned unchanged. */
  lemma NoColonUnchanged(table: Table, s: string)
    requires ':' !in s
    ensures ReplaceEmoji(table, s) == s
  {
    NoSeparatorSinglePart(s, ':');
    UnmatchedTextUnchanged(table, s);
  }

  /** Everything before the first colon is emitted verbatim as a prefix of
      the output. */
  lemma FirstSegmentVerbatim(table: Table, s: string, k: nat)
    requires k <= |s|
    requires ':' !in s[..k]
    ensures s[..k] <= ReplaceEmoji(table, s)
  {
    FirstPartCoversPrefix(s, ':', k);
  }

  /** A matched part is replaced by its glyph without its leading colon;
      the part after it is emitted without its leading colon and is not
      looked up, and matching resumes after that. */
  lemma MatchConsumesFollowing(table: Table, x: string, y: string, rest: seq<string>)
    requires x in table
    ensures Emit(table, [x, y] + rest, false) == table[x] + y + Emit(table, rest, false)
  {
    assert ([x, y] + rest)[1..] == [y] + rest;
    assert ([y] + rest)[1..] == rest;
  }

  /** The last part is a candidate too: `p:x` with `x` in the table
      becomes `p` followed by the glyph of `x`. */
  lemma FinalSegmentReplaced(table: Table, p: string, x: string)
    requires ':' !in p && ':' !in x
    requires x in table
    ensures ReplaceEmoji(table, p + ":" + x) == p + table[x]
  {
    SplitAfter(p, x);
    NoSeparatorSinglePart(x, ':');
    var parts := Split(p + ":" + x, ':');
    assert parts == [p, x];
    assert parts[1..] == [x];
    assert Emit(table, [x], false) == table[x] + Emit(table, [], true);
  }

  /** A colon-free head followed by a colon splits off as the first part. */
  lemma SplitAfter(a: string, t: string)
    requires ':' !in a
    ensures Split(a + ":" + t, ':') == [a] + Split(t, ':')
  {
    var ps := Split(t, ':');
    JoinSplit(t, ':');
    assert ([a] + ps)[1..] == ps;
    assert Join([a] + ps, ':') == a + ":" + Join(ps, ':');
    SplitJoin([a] + ps, ':');
  }

  /** The cases the source's unit test checks, for any table that knows
      `heart` but neither the empty name nor `sdfsdfsdfs`. */
  lemma SourceExamples(table: Table)
    requires "heart" in table && "" !in table && "sdfsdfsdfs" !in table
    ensures var g := table["heart"];
      && ReplaceEmoji(table, ":") == ":"
      && ReplaceEmoji(table, ":heart:") == g
      && ReplaceEmoji(table, "::heart:heart:") == ":" + g + "heart:"
      && ReplaceEmoji(table, ":heart:heart:") == g + "heart:"
      && ReplaceEmoji(table, ":heart:::::heart:") == g + ":::" + g
      && ReplaceEmoji(table, ":sdfsdfsdfs::heart:") == ":sdfsdfsdfs:" + g
  {
    ExampleColon(table);
    HeartExamples(table);
    HeartRunExamples(table);
  }

  lemma HeartExamples(table: Table)
    requires "heart" in table && "" !in table
    ensures var g := table["heart"];
      && ReplaceEmoji(table, ":heart:") == g
      && ReplaceEmoji(table, ":heart:heart:") == g + "heart:"
  {
    var h := "heart";
    ExampleName(table, h);
    assert ":" + h + ":" == ":heart:";
    ExampleRepeated(table, h);
    assert ":" + h + ":" + h + ":" == ":heart:heart:";
  }

  lemma HeartRunExamples(table: Table)
    requires "heart" in table && "" !in table && "sdfsdfsdfs" !in table
    ensures var g := table["heart"];
      && ReplaceEmoji(table, "::heart:heart:") == ":" + g + "heart:"
      && ReplaceEmoji(table, ":heart:::::heart:") == g + ":::" + g
      && ReplaceEmoji(table, ":sdfsdfsdfs::heart:") == ":sdfsdfsdfs:" + g
  {
    LeadingEmptyLiteral(table);
    ColonRunLiteral(table);
    UnknownLiteral(table);
  }

  lemma LeadingEmptyLiteral(table: Table)
    requires "heart" in table && "" !in table
    ensures ReplaceEmoji(table, "::heart:heart:") == ":" + table["heart"] + "heart:"
  {
    var h := "heart";
    ExampleLeadingEmpty(table, h);
    assert "::" + h + ":" + h + ":" == "::heart:heart:";
  }

  lemma ColonRunLiteral(table: Table)
    requires "heart" in table && "" !in table
    ensures ReplaceEmoji(table, ":heart:::::heart:") == table["heart"] + ":::" + table["heart"]
  {
    var h := "heart";
    ExampleColonRun(table, h);
    assert ":" + h + ":::::" + h + ":" == ":heart:::::heart:";
  }

  lemma UnknownLiteral(table: Table)
    requires "heart" in table && "" !in table && "sdfsdfsdfs" !in table
    ensures ReplaceEmoji(table, ":sdfsdfsdfs::heart:") == ":sdfsdfsdfs:" + table["heart"]
  {
    ExampleUnknown(table, "sdfsdfsdfs", "heart");
    UnknownSampleText();
  }

  /** The unknown-name sample, spelt out from its pieces. */
  lemma UnknownSampleText()
    ensures ":" + "sdfsdfsdfs" + "::" + "heart" + ":" == ":sdfsdfsdfs::heart:"
    ensures ":" + "sdfsdfsdfs" + ":" == ":sdfsdfsdfs:"
  {
    var u, h := "sdfsdfsdfs", "heart";
    LiteralEqual(":" + u + "::" + h + ":", ":sdfsdfsdfs::heart:");
    LiteralEqual(":" + u + ":", ":sdfsdfsdfs:");
  }

  /** A lone colon is two empty parts and stays as it is. */
  lemma ExampleColon(table: Table)
    requires "" !in table
    ensures ReplaceEmoji(table, ":") == ":"
  {
    NoSeparatorSinglePart("", ':');
    SplitAfter("", "");
    var parts := ["", ""];
    assert Split(":", ':') == parts;
    assert parts[1..] == [""];
    assert Emit(table, [""], false) == ":" + "" + Emit(table, [], false);
  }

  /** `:h:` becomes the glyph of `h`. */
  lemma ExampleName(table: Table, h: string)
    requires h in table && ':' !in h
    ensures ReplaceEmoji(table, ":" + h + ":") == table[h]
  {
    TrailingShortcode(table, "", h);
    assert "" + ":" + h + ":" == ":" + h + ":";
  }

  /** `p:h:` becomes `p` followed by the glyph of `h`. */
  lemma TrailingShortcode(table: Table, p: string, h: string)
    requires h in table && ':' !in p && ':' !in h
    ensures ReplaceEmoji(table, p + ":" + h + ":") == p + table[h]
  {
    NoSeparatorSinglePart("", ':');
    SplitAfter(h, "");
    SplitAfter(p, h + ":");
    assert p + ":" + h + ":" == p + ":" + (h + ":");
    assert h + ":" == h + ":" + "";
    var parts := [p, h, ""];
    assert Split(p + ":" + h + ":", ':') == parts;
    assert parts[1..] == [h, ""] + [];
    MatchConsumesFollowing(table, h, "", []);
  }

  /** `h:h:` splits into `h`, `h` and an empty part. */
  lemma SplitRepeated(h: string)
    requires ':' !in h
    ensures Split(h + ":" + h + ":", ':') == [h, h, ""]
  {
    NoSeparatorSinglePart("", ':');
    SplitAfter(h, "");
    assert h + ":" == h + ":" + "";
    SplitAfter(h, h + ":");
    assert h + ":" + h + ":" == h + ":" + (h + ":");
  }

  /** `:h:h:` becomes the glyph followed by `h:`: the second `h` follows a
      replacement and is not looked up. */
  lemma ExampleRepeated(table: Table, h: string)
    requires h in table && "" !in table && ':' !in h
    ensures ReplaceEmoji(table, ":" + h + ":" + h + ":") == table[h] + h + ":"
  {
    SplitRepeated(h);
    SplitAfter("", h + ":" + h + ":");
    assert ":" + h + ":" + h + ":" == "" + ":" + (h + ":" + h + ":");
    var parts := ["", h, h, ""];
    assert Split(":" + h + ":" + h + ":", ':') == parts;
    assert parts[1..] == [h, h] + [""];
    MatchConsumesFollowing(table, h, h, [""]);
  }

  /** `::h:h:` keeps the empty name with its colon, then as above. */
  lemma ExampleLeadingEmpty(table: Table, h: string)
    requires h in table && "" !in table && ':' !in h
    ensures ReplaceEmoji(table, "::" + h + ":" + h + ":") == ":" + table[h] + h + ":"
  {
    SplitRepeated(h);
    SplitAfter("", h + ":" + h + ":");
    SplitAfter("", ":" + h + ":" + h + ":");
    assert "::" + h + ":" + h + ":" == "" + ":" + ("" + ":" + (h + ":" + h + ":"));
    var parts := ["", "", h, h, ""];
    assert Split("::" + h + ":" + h + ":", ':') == parts;
    assert parts[1..] == [""] + ([h, h] + [""]);
    MatchConsumesFollowing(table, h, h, [""]);
  }

  /** `:h:::::h:` splits into an empty part, `h`, four empty parts, `h`
      and an empty part. */
  lemma SplitColonRun(h: string)
    requires ':' !in h
    ensures Split(":" + h + ":::::" + h + ":", ':') == ["", h, "", "", "", "", h, ""]
  {
    SplitTrailing(h);
    var s1 := SplitEmptyRun(h + ":");
    assert Split(s1, ':') == ["", "", "", ""] + [h, ""];
    SplitAfter(h, s1);
    var s0 := h + ":" + s1;
    SplitLeadingColon(s0);
    ColonRunText(h, s1);
  }

  /** `h:` splits into `h` and an empty part. */
  lemma SplitTrailing(h: string)
    requires ':' !in h
    ensures Split(h + ":", ':') == [h, ""]
  {
    NoSeparatorSinglePart("", ':');
    SplitAfter(h, "");
    assert h + ":" == h + ":" + "";
  }

  /** A leading colon adds an empty part in front. */
  lemma SplitLeadingColon(t: string)
    ensures Split(":" + t, ':') == [""] + Split(t, ':')
  {
    SplitAfter("", t);
    assert ":" + t == "" + ":" + t;
  }

  lemma ColonRunText(h: string, s1: string)
    requires s1 == "::::" + (h + ":")
    ensures ":" + (h + ":" + s1) == ":" + h + ":::::" + h + ":"
  {
  }

  /** Four colons in front of `s` add four empty parts in front of its split. */
  lemma SplitEmptyRun(s: string) returns (s1: string)
    ensures s1 == "::::" + s
    ensures Split(s1, ':') == ["", "", "", ""] + Split(s, ':')
  {
    var s4 := ":" + s;
    var s3 := ":" + s4;
    var s2 := ":" + s3;
    s1 := ":" + s2;
    SplitLeadingColon(s);
    SplitLeadingColon(s4);
    SplitLeadingColon(s3);
    SplitLeadingColon(s2);
  }

  /** `:h:::::h:` becomes glyph, three colons, glyph. */
  lemma ExampleColonRun(table: Table, h: string)
    requires h in table && "" !in table && ':' !in h
    ensures ReplaceEmoji(table, ":" + h + ":::::" + h + ":") == table[h] + ":::" + table[h]
  {
    var g := table[h];
    SplitColonRun(h);
    var tail := ["", "", "", h, ""];
    var parts := ["", h, "", "", "", "", h, ""];
    assert parts[1..] == [h, ""] + tail;
    MatchConsumesFollowing(table, h, "", tail);
    MatchConsumesFollowing(table, h, "", []);
    var t1, t2, t3 := ["", "", h, ""], ["", h, ""], [h, ""];
    assert tail[1..] == t1 && t1[1..] == t2 && t2[1..] == t3;
    assert t3 == [h, ""] + [];
    assert Emit(table, t3, false) == g;
    assert Emit(table, t2, false) == ":" + g;
    assert Emit(table, t1, false) == "::" + g;
    assert Emit(table, tail, false) == ":::" + g;
  }

  /** `:u::h:` with `u` unknown keeps `:u:` and replaces `h`. */
  lemma ExampleUnknown(table: Table, u: string, h: string)
    requires h in table && "" !in table && u !in table && ':' !in h && ':' !in u
    ensures ReplaceEmoji(table, ":" + u + "::" + h + ":") == ":" + u + ":" + table[h]
  {
    var g := table[h];
    var parts := SplitUnknown(u, h);
    var tail := [h, ""];
    assert parts[1..] == [u, ""] + tail;
    assert parts[1..][1..] == [""] + tail;
    assert tail == [h, ""] + [];
    MatchConsumesFollowing(table, h, "", []);
    assert Emit(table, tail, false) == g;
    assert Emit(table, [""] + tail, false) == ":" + g;
  }

  /** `:u::h:` splits into an empty part, `u`, an empty part, `h` and an
      empty part. */
  lemma SplitUnknown(u: string, h: string) returns (parts: seq<string>)
    requires ':' !in h && ':' !in u
    ensures parts == ["", u, "", h, ""]
    ensures Split(":" + u + "::" + h + ":", ':') == parts
  {
    parts := ["", u, "", h, ""];
    SplitTrailing(h);
    var s2 := ":" + (h + ":");
    SplitLeadingColon(h + ":");
    var s1 := u + ":" + s2;
    SplitAfter(u, s2);
    SplitLeadingColon(s1);
    UnknownText(u, h);
  }

  lemma UnknownText(u: string, h: string)
    ensures ":" + (u + ":" + (":" + (h + ":"))) == ":" + u + "::" + h + ":"
  {
  }

  /** Two shortcodes separated by an empty part, `p:h::h:q`, both become
      glyphs: the empty part after the first replacement is consumed. */
  lemma AdjacentShortcodes(table: Table, p: string, h: string, q: string)
    requires h in table && ':' !in p && ':' !in h && ':' !in q
    ensures ReplaceEmoji(table, p + ":" + h + "::" + h + ":" + q)
         == p + table[h] + table[h] + q
  {
    var parts := SplitAdjacent(p, h, q);
    assert parts[1..] == [h, ""] + [h, q];
    MatchConsumesFollowing(table, h, "", [h, q]);
    MatchConsumesFollowing(table, h, q, []);
    assert [h, q] == [h, q] + [];
  }

  /** `p:h::h:q` splits into `p`, `h`, an empty part, `h` and `q`. */
  lemma SplitAdjacent(p: string, h: string, q: string) returns (parts: seq<string>)
    requires ':' !in p && ':' !in h && ':' !in q
    ensures parts == [p, h, "", h, q]
    ensures Split(p + ":" + h + "::" + h + ":" + q, ':') == parts
  {
    parts := [p, h, "", h, q];
    NoSeparatorSinglePart(q, ':');
    SplitAfter(h, q);
    var s2 := ":" + (h + ":" + q);
    SplitLeadingColon(h + ":" + q);
    var s1 := h + ":" + s2;
    SplitAfter(h, s2);
    SplitAfter(p, s1);
    AdjacentText(p, h, q);
  }

  lemma AdjacentText(p: string, h: string, q: string)
    ensures p + ":" + (h + ":" + (":" + (h + ":" + q))) == p + ":" + h + "::" + h + ":" + q
  {
  }
}

=== FILE: host.dfy ===
/** The state of the world the bridge acts on, as far as it observes it.

    The homeserver, the appservice client library and the database are not
    modelled; what the bridge's decisions depend on and change is: the
    webhook table, which (user, room) pairs are joined, and the ordered log
    of invites, joins, room creations and messages the bridge caused. Users
    the bridge acts as are named by localpart (they all live on the bridge's
    own homeserver). Parsing of Matrix identifiers is left uninterpreted.
 */
module Host {
  import opened Base
  import WebhookStore
  import WebhookRequest

  /** A fully qualified Matrix user id. */
  datatype UserId = UserId(localpart: string, server: string)

  /** A fully qualified user id as text, `@localpart:server`. */
  function UserIdText(u: UserId): string
  {
    "@" + u.localpart + ":" + u.server
  }

  /** Room creation presets; the bridge only ever asks for a private chat. */
  datatype Preset = PrivateChat | PublicChat | TrustedPrivateChat

  /** An observable action of the bridge. */
  datatype Event =
    | Invited(inviter: string, invitee: string, room: string)
    | Joined(user: string, room: string)
    | RoomCreated(creator: string, room: string, invites: seq<UserId>, preset: Preset)
    | Sent(sender: string, room: string, content: WebhookRequest.MessageContent)

  /** The observed state. */
  datatype Host = Host(
    store: WebhookStore.Store,
    joined: set<(string, string)>,
    log: seq<Event>)

  /** The table is well keyed and every join the log records is reflected
      in the membership set. */
  predicate Valid(h: Host)
  {
    && WebhookStore.Valid(h.store)
    && forall i :: 0 <= i < |h.log| && h.log[i].Joined? ==> (h.log[i].user, h.log[i].room) in h.joined
  }

  /** `h'` is `h` with events appended to its log and nothing removed. */
  predicate Extends(h: Host, h': Host)
  {
    |h.log| <= |h'.log| && h'.log[..|h.log|] == h.log && h.joined <= h'.joined
  }

  /** Matrix identifier parsing, left uninterpreted. */
  datatype Names = Names(
    /** Parses a room id. */
    parseRoomId: string -> Result<string>,
    /** Parses the configured domain as a server name, then builds the user
        id for a localpart on it. */
    qualify: (string, string) -> Result<UserId>,
    /** Parses a full user id. */
    parseUserId: string -> Result<UserId>)

  /** The configuration the core reads. */
  datatype Config = Config(
    botLocalpart: string,
    domain: string,
    hookUrlBase: string,
    avatarUrl: string)
}

=== FILE: html_text.dfy ===
/** Reduction of an HTML fragment to its plain text (`html_to_text`).

    The HTML5 parser itself is not modelled: it is a parameter that maps the
    raw markup to a node tree. The bridge visits every node the parser
    allocated, in allocation order, keeps the text of the text nodes, drops
    everything else (elements with their tag names and attributes, comments,
    the fragment root), and concatenates what was kept. The model walks the
    tree in pre-order instead, taking the parser to allocate nodes in
    document order.
 */
module HtmlText {
  import opened Strings

  /** A node of a parsed HTML fragment. */
  datatype Node =
    | Text(text: string)
    | Element(name: string, attrs: seq<(string, string)>, children: seq<Node>)
    | Comment(comment: string)
    | Fragment(children: seq<Node>)

  /** An HTML5 fragment parser, left uninterpreted. */
  type Parser = string -> Node

  /** Every node of the tree rooted at `n`, each before its descendants. */
  function PreOrder(n: Node): seq<Node>
    decreases n, 1
  {
    match n
    case Text(_) => [n]
    case Comment(_) => [n]
    case Element(_, _, cs) => [n] + PreOrderAll(cs)
    case Fragment(cs) => [n] + PreOrderAll(cs)
  }

  /** The pre-order listings of `ns`, one after the other. */
  function PreOrderAll(ns: seq<Node>): seq<Node>
    decreases ns, 0
  {
    if ns == [] then [] else PreOrder(ns[0]) + PreOrderAll(ns[1..])
  }

  /** The texts of the text nodes among `ns`, in order. */
  function TextsOf(ns: seq<Node>): seq<string>
  {
    if ns == [] then []
    else if ns[0].Text? then [ns[0].text] + TextsOf(ns[1..])
    else TextsOf(ns[1..])
  }

  /** `html_to_text`: parse, list every node, keep the text nodes' text and
      join it with nothing in between. */
  function HtmlToText(parse: Parser, raw: string): string
  {
    Concat(TextsOf(PreOrder(parse(raw))))
  }

  /** The text content of a tree, defined by structural recursion: text is
      kept, tags, attributes and comments contribute nothing. */
  function TextContent(n: Node): string
    decreases n, 1
  {
    match n
    case Text(t) => t
    case Comment(_) => ""
    case Element(_, _, cs) => TextContentAll(cs)
    case Fragment(cs) => TextContentAll(cs)
  }

  /** The text contents of `ns`, one after the other. */
  function TextContentAll(ns: seq<Node>): string
    decreases ns, 0
  {
    if ns == [] then "" else TextContent(ns[0]) + TextContentAll(ns[1..])
  }

  /** Filtering text nodes distributes over appending node lists. */
  lemma {:induction false} TextsOfAppend(a: seq<Node>, b: seq<Node>)
    ensures TextsOf(a + b) == TextsOf(a) + TextsOf(b)
    decreases |a|
  {
    if a == [] {
      assert a + b == b;
    } else {
      assert (a + b)[1..] == a[1..] + b;
      TextsOfAppend(a[1..], b);
    }
  }

  /** Walking the whole tree and joining its text nodes yields exactly the
      structural text content. */
  lemma {:induction false} WalkIsTextContent(n: Node)
    ensures Concat(TextsOf(PreOrder(n))) == TextContent(n)
    decreases n, 1
  {
    match n
    case Text(t) =>
      assert TextsOf([n]) == [t] + TextsOf([]);
    case Comment(_) =>
      assert TextsOf([n]) == TextsOf([]);
    case Element(_, _, cs) =>
      WalkAllIsTextContent(cs);
      TextsOfAppend([n], PreOrderAll(cs));
      assert TextsOf([n]) == TextsOf([]);
    case Fragment(cs) =>
      WalkAllIsTextContent(cs);
      TextsOfAppend([n], PreOrderAll(cs));
      assert TextsOf([n]) == TextsOf([]);
  }

  /** The same for a list of sibling trees. */
  lemma {:induction false} WalkAllIsTextContent(ns: seq<Node>)
    ensures Concat(TextsOf(PreOrderAll(ns))) == TextContentAll(ns)
    decreases ns, 0
  {
    if ns != [] {
      WalkIsTextContent(ns[0]);
      WalkAllIsTextContent(ns[1..]);
      TextsOfAppend(PreOrder(ns[0]), PreOrderAll(ns[1..]));
      ConcatAppend(TextsOf(PreOrder(ns[0])), TextsOf(PreOrderAll(ns[1..])));
    }
  }

  /** `html_to_text` keeps the text nodes' text in document order and drops
      all markup: it is the structural text content of the parsed tree. */
  lemma HtmlToTextIsTextContent(parse: Parser, raw: string)
    ensures HtmlToText(parse, raw) == TextContent(parse(raw))
  {
    WalkIsTextContent(parse(raw));
  }

  /** The tree an HTML5 parser builds for the markup shape the source's tests
      use, `<b>first</b> <br><ol><li>aa</li> <li>bb</li></ol>`, with `first`
      free of markup. */
  function MarkupTree(first: string): Node
  {
    Fragment([Element("html", [], [
      Element("b", [], [Text(first)]),
      Text(" "),
      Element("br", [], []),
      Element("ol", [], [
        Element("li", [], [Text("aa")]),
        Text(" "),
        Element("li", [], [Text("bb")])])])])
  }

  /** The tree for `<b>Hello world!</b> <br><ol><li>aa</li> <li>bb</li></ol>`. */
  function SampleTree(): Node
  {
    MarkupTree("Hello world!")
  }

  /** That tree reduces to `Hello world! aa bb`. */
  lemma SampleTreeText(parse: Parser, raw: string)
    requires parse(raw) == SampleTree()
    ensures HtmlToText(parse, raw) == "Hello world! aa bb"
  {
    HtmlToTextIsTextContent(parse, raw);
    SampleTreeContent();
  }

  /** The text content of the sample tree. */
  lemma SampleTreeContent()
    ensures TextContent(SampleTree()) == "Hello world! aa bb"
  {
    MarkupTreeContent("Hello world!");
    LiteralEqual("Hello world!" + " aa bb", "Hello world! aa bb");
  }

  /** The markup shape reads as its first text followed by ` aa bb`. */
  lemma MarkupTreeContent(first: string)
    ensures TextContent(MarkupTree(first)) == first + " aa bb"
  {
    var b := Element("b", [], [Text(first)]);
    var br := Element("br", [], []);
    var ol := Element("ol", [], [Element("li", [], [Text("aa")]), Text(" "),
                                 Element("li", [], [Text("bb")])]);
    var html := Element("html", [], [b, Text(" "), br, ol]);
    assert MarkupTree(first) == Fragment([html]);
    TextContentOne(html);
    TextContentOne(Text(first));
    SampleListText();
    TextContentFour(b, Text(" "), br, ol);
    LiteralEqual(" " + "" + "aa bb", " aa bb");
    assert first + " " + "" + "aa bb" == first + (" " + "" + "aa bb");
  }

  /** The sample's ordered list reads as `aa bb`. */
  lemma SampleListText()
    ensures TextContent(Element("ol", [], [Element("li", [], [Text("aa")]), Text(" "),
                                           Element("li", [], [Text("bb")])])) == "aa bb"
  {
    var li1 := Element("li", [], [Text("aa")]);
    var li2 := Element("li", [], [Text("bb")]);
    TextContentOne(Text("aa"));
    TextContentOne(Text("bb"));
    TextContentThree(li1, Text(" "), li2);
    LiteralEqual("aa" + " " + "bb", "aa bb");
  }

  lemma TextContentOne(a: Node)
    ensures TextContentAll([a]) == TextContent(a)
  {
    assert [a][1..] == [];
  }

  lemma TextContentThree(a: Node, b: Node, c: Node)
    ensures TextContentAll([a, b, c]) == TextContent(a) + TextContent(b) + TextContent(c)
  {
    assert [a, b, c][1..] == [b, c];
    assert [b, c][1..] == [c];
    TextContentOne(c);
  }

  lemma TextContentFour(a: Node, b: Node, c: Node, d: Node)
    ensures TextContentAll([a, b, c, d])
         == TextContent(a) + TextContent(b) + TextContent(c) + TextContent(d)
  {
    assert [a, b, c, d][1..] == [b, c, d];
    TextContentThree(b, c, d);
  }
}

=== FILE: identity.dfy ===
/** The localpart of the virtual user that posts for one webhook.

    It is the primary bot's localpart, two underscores, and the lower-case
    hex encoding of the first 16 bytes of the SHA-256 digest of the webhook
    id. SHA-256 itself is not modelled: it is a parameter that maps a string
    to 32 bytes. Hex encoding is modelled and proved invertible.
 */
module Identity {
  import opened Base

  type byte = x: int | 0 <= x < 256

  /** A SHA-256 digest: exactly 32 bytes. */
  type Digest = d: seq<byte> | |d| == 32 witness seq(32, i => 0)

  /** A SHA-256 implementation, left uninterpreted. */
  type Hasher = string -> Digest

  /** How many digest bytes the localpart keeps. */
  const PrefixBytes: nat := 16

  /** What joins the bot localpart and the digest. */
  const Separator: string := "__"

  const HexDigits: string := "0123456789abcdef"

  predicate IsLowerHex(c: char)
  {
    ('0' <= c <= '9') || ('a' <= c <= 'f')
  }

  /** The lower-case hex digit for `n`. */
  function HexDigit(n: int): (c: char)
    requires 0 <= n < 16
    ensures IsLowerHex(c)
  {
    HexDigits[n]
  }

  /** The value of a lower-case hex digit. */
  function HexValue(c: char): (n: int)
    requires IsLowerHex(c)
    ensures 0 <= n < 16
  {
    if '0' <= c <= '9' then c as int - '0' as int else c as int - 'a' as int + 10
  }

  /** Each byte as two lower-case hex digits, high nibble first. */
  function HexEncode(bs: seq<byte>): (r: string)
    ensures |r| == 2 * |bs|
    ensures forall i :: 0 <= i < |r| ==> IsLowerHex(r[i])
  {
    if bs == [] then ""
    else [HexDigit(bs[0] / 16), HexDigit(bs[0] % 16)] + HexEncode(bs[1..])
  }

  /** Reads pairs of lower-case hex digits back into bytes. */
  function HexDecode(s: string): Option<seq<byte>>
  {
    if s == [] then Some([])
    else if |s| == 1 || !IsLowerHex(s[0]) || !IsLowerHex(s[1]) then None
    else
      match HexDecode(s[2..])
      case None => None
      case Some(rest) => Some([(HexValue(s[0]) * 16 + HexValue(s[1])) as byte] + rest)
  }

  /** Decoding an encoding gives back the bytes. */
  lemma {:induction false} DecodeEncode(bs: seq<byte>)
    ensures HexDecode(HexEncode(bs)) == Some(bs)
  {
    if bs != [] {
      var b := bs[0];
      var s := HexEncode(bs);
      DigitValue(b / 16);
      DigitValue(b % 16);
      assert s[2..] == HexEncode(bs[1..]);
      DecodeEncode(bs[1..]);
      assert HexValue(s[0]) * 16 + HexValue(s[1]) == b;
      assert bs == [b] + bs[1..];
    }
  }

  /** A digit's value is the number it was made from. */
  lemma DigitValue(n: int)
    requires 0 <= n < 16
    ensures HexValue(HexDigit(n)) == n
  {
  }

  /** Different byte strings have different encodings. */
  lemma EncodeInjective(a: seq<byte>, b: seq<byte>)
    requires HexEncode(a) == HexEncode(b)
    ensures a == b
  {
    DecodeEncode(a);
    DecodeEncode(b);
  }

  /** The localpart for a bot whose digest is `digest`. */
  function BotLocalpart(base: string, digest: Digest): (r: string)
    ensures |r| == |base| + |Separator| + 2 * PrefixBytes
    ensures r[..|base|] == base
    ensures r[|base|..|base| + |Separator|] == Separator
    ensures forall i :: |base| + |Separator| <= i < |r| ==> IsLowerHex(r[i])
    ensures HexDecode(r[|base| + |Separator|..]) == Some(digest[..PrefixBytes])
  {
    var suffix := HexEncode(digest[..PrefixBytes]);
    DecodeEncode(digest[..PrefixBytes]);
    var r := base + Separator + suffix;
    assert r[|base| + |Separator|..] == suffix;
    r
  }

  /** `format!("{}__{}", localpart, hex(sha256(id)[0..16]))`. */
  function WebhookLocalpart(base: string, sha256: Hasher, webhookId: string): string
  {
    BotLocalpart(base, sha256(webhookId))
  }

  /** Two webhooks get the same localpart only if their digests agree on
      the first 16 bytes; with a collision-free hash, only if they are the
      same webhook. */
  lemma LocalpartsSeparateDigests(base: string, sha256: Hasher, a: string, b: string)
    requires sha256(a)[..PrefixBytes] != sha256(b)[..PrefixBytes]
    ensures WebhookLocalpart(base, sha256, a) != WebhookLocalpart(base, sha256, b)
  {
  }
}

=== FILE: store.dfy ===
/** The webhook table (`Store`).

    The table has one row per webhook with `id` as its primary key; it is
    modelled as a map from id to record. Acquiring a connection from the
    pool can fail; that outcome is a parameter of every operation. The id of
    a new webhook is drawn at random by the caller of the store, 32
    alphanumeric characters; the draw is a parameter too.
 */
module WebhookStore {
  import opened Base

  /** One row of the `webhooks` table. */
  datatype Webhook = Webhook(id: string, roomId: string, userId: string, hookLabel: Option<string>)

  /** The table, keyed by primary key. */
  type Store = map<string, Webhook>

  /** Every row sits under its own id. */
  predicate Valid(s: Store)
  {
    forall k :: k in s ==> s[k].id == k
  }

  /** The length of a generated webhook id. */
  const IdLength: nat := 32

  predicate IsAlphanumeric(c: char)
  {
    ('0' <= c <= '9') || ('a' <= c <= 'z') || ('A' <= c <= 'Z')
  }

  /** What the random id generator is taken to yield: 32 ASCII letters and
      digits. The generator is not part of this model. */
  predicate IsRandomId(id: string)
  {
    |id| == IdLength && forall i :: 0 <= i < |id| ==> IsAlphanumeric(id[i])
  }

  /** Stands for the database's duplicate-key error on a second row with an
      existing id. Its wording is the driver's and is not modelled; the
      bridge only logs it. */
  const UniqueViolation: string := "duplicate webhook id"

  /** `create_webhook`: inserts a new row for `roomId` and `userId` under the
      drawn id, or fails without changing the table. */
  function CreateWebhook(s: Store, roomId: string, userId: string, drawnId: string, conn: Outcome)
    : (r: Result<(Store, Webhook)>)
    requires IsRandomId(drawnId)
    ensures r.Ok? <==> conn.Ok? && drawnId !in s
    ensures conn.Err? ==> r == Err(conn.error)
    ensures conn.Ok? && drawnId in s ==> r == Err(UniqueViolation)
    ensures r.Ok? ==>
      var (s', hook) := r.value;
      && hook.id == drawnId && |hook.id| == IdLength
      && hook.roomId == roomId && hook.userId == userId && hook.hookLabel == None
      && s'.Keys == s.Keys + {hook.id}
      && |s'| == |s| + 1
      && s'[hook.id] == hook
      && (forall k :: k in s ==> s'[k] == s[k])
      && (Valid(s) ==> Valid(s'))
  {
    var hook := Webhook(drawnId, roomId, userId, None);
    if conn.Err? then Err(conn.error)
    else if hook.id in s then Err(UniqueViolation)
    else Ok((s[hook.id := hook], hook))
  }

  /** `get_webhook_by_id`: the row with this id if there is one; an absent
      id is not an error. */
  function GetWebhookById(s: Store, id: string, conn: Outcome): (r: Result<Option<Webhook>>)
    ensures r.Ok? <==> conn.Ok?
    ensures r.Ok? ==> (r.value.Some? <==> id in s)
    ensures r.Ok? && r.value.Some? ==> r.value.value == s[id]
    ensures Valid(s) && r.Ok? && r.value.Some? ==> r.value.value.id == id
  {
    if conn.Err? then Err(conn.error)
    else if id in s then Ok(Some(s[id]))
    else Ok(None)
  }

  /** A created webhook is found again under the id it was given, and is
      equal to the record returned at creation. */
  lemma CreateThenGet(s: Store, roomId: string, userId: string, drawnId: string)
    requires IsRandomId(drawnId)
    requires CreateWebhook(s, roomId, userId, drawnId, Pass).Ok?
    ensures var (s', hook) := CreateWebhook(s, roomId, userId, drawnId, Pass).value;
      GetWebhookById(s', hook.id, Pass) == Ok(Some(hook))
  {
  }

  /** Creating a webhook leaves every other lookup as it was. */
  lemma CreateKeepsOtherLookups(s: Store, roomId: string, userId: string, drawnId: string,
                                other: string, conn: Outcome)
    requires IsRandomId(drawnId)
    requires CreateWebhook(s, roomId, userId, drawnId, Pass).Ok?
    requires other != drawnId
    ensures var (s', _) := CreateWebhook(s, roomId, userId, drawnId, Pass).value;
      GetWebhookById(s', other, conn) == GetWebhookById(s, other, conn)
  {
  }
}

=== FILE: strings.dfy ===
/** Splitting a string on a separator character and joining it back.

    `Split` follows the semantics of splitting a string on a single
    character: an empty string yields one empty part, and every occurrence of
    the separator ends one part and starts the next, so a string with `n`
    separators always yields `n + 1` parts.
 */
module Strings {

  /** The parts of `s` between occurrences of `sep`, in order. */
  function Split(s: string, sep: char): (parts: seq<string>)
    ensures |parts| >= 1
    ensures forall i :: 0 <= i < |parts| ==> sep !in parts[i]
    decreases |s|
  {
    if |s| == 0 then [""]
    else if s[0] == sep then [""] + Split(s[1..], sep)
    else
      var rest := Split(s[1..], sep);
      [[s[0]] + rest[0]] + rest[1..]
  }

  /** Each part of `ps` preceded by one `sep`, concatenated. */
  function Interleave(ps: seq<string>, sep: char): string
  {
    if ps == [] then "" else [sep] + ps[0] + Interleave(ps[1..], sep)
  }

  /** The parts joined with `sep` between consecutive parts. */
  function Join(parts: seq<string>, sep: char): string
    requires |parts| >= 1
  {
    parts[0] + Interleave(parts[1..], sep)
  }

  /** Joining the parts of a split gives back the original string. */
  lemma {:induction false} JoinSplit(s: string, sep: char)
    ensures Join(Split(s, sep), sep) == s
    decreases |s|
  {
    if |s| == 0 {
    } else {
      var rest := Split(s[1..], sep);
      JoinSplit(s[1..], sep);
      assert Join(rest, sep) == s[1..];
      if s[0] == sep {
        assert Split(s, sep) == [""] + rest;
        assert Join(Split(s, sep), sep) == Interleave(rest, sep);
        assert Interleave(rest, sep) == [sep] + rest[0] + Interleave(rest[1..], sep);
        assert s == [s[0]] + s[1..];
      } else {
        var parts := Split(s, sep);
        assert parts == [[s[0]] + rest[0]] + rest[1..];
        assert parts[1..] == rest[1..];
        assert Join(parts, sep) == [s[0]] + rest[0] + Interleave(rest[1..], sep);
        assert s == [s[0]] + s[1..];
      }
    }
  }

  /** Splitting a join of separator-free parts gives back the parts. */
  lemma {:induction false} SplitJoin(parts: seq<string>, sep: char)
    requires |parts| >= 1
    requires forall i :: 0 <= i < |parts| ==> sep !in parts[i]
    ensures Split(Join(parts, sep), sep) == parts
    decreases |parts|, |parts[0]|
  {
    var p := parts[0];
    if |p| == 0 {
      if |parts| == 1 {
        assert Join(parts, sep) == "";
      } else {
        var tail := parts[1..];
        assert Join(parts, sep) == [sep] + Join(tail, sep);
        SplitJoin(tail, sep);
        var j := Join(parts, sep);
        assert j[1..] == Join(tail, sep);
        assert Split(j, sep) == [""] + tail;
        assert parts == [""] + tail;
      }
    } else {
      var parts' := [p[1..]] + parts[1..];
      assert forall i :: 0 <= i < |parts'| ==> sep !in parts'[i] by {
        forall i | 0 <= i < |parts'|
          ensures sep !in parts'[i]
        {
          if i == 0 {
            assert forall c :: c in p[1..] ==> c in p;
          } else {
            assert parts'[i] == parts[i];
          }
        }
      }
      SplitJoin(parts', sep);
      var j := Join(parts, sep);
      assert parts'[1..] == parts[1..];
      assert j == [p[0]] + Join(parts', sep);
      assert j[0] == p[0] && p[0] != sep;
      assert j[1..] == Join(parts', sep);
      var rest := Split(j[1..], sep);
      assert rest == parts';
      assert Split(j, sep) == [[p[0]] + rest[0]] + rest[1..];
      assert [p[0]] + p[1..] == p;
    }
  }

  /** A string with no separator is a single part. */
  lemma NoSeparatorSinglePart(s: string, sep: char)
    requires sep !in s
    ensures Split(s, sep) == [s]
  {
    SplitJoin([s], sep);
    assert Join([s], sep) == s;
  }

  /** Every prefix of `s` free of `sep` is a prefix of the first part. */
  lemma {:induction false} FirstPartCoversPrefix(s: string, sep: char, k: nat)
    requires k <= |s|
    requires sep !in s[..k]
    ensures s[..k] <= Split(s, sep)[0]
    decreases k
  {
    if k == 0 {
    } else {
      assert s[0] == s[..k][0];
      assert s[0] != sep;
      assert s[1..][..k - 1] == s[..k][1..];
      var t := s[1..][..k - 1];
      var u := s[..k];
      assert sep !in t by {
        forall i | 0 <= i < |t| ensures t[i] != sep {
          assert t[i] == u[i + 1];
        }
      }
      FirstPartCoversPrefix(s[1..], sep, k - 1);
      var rest := Split(s[1..], sep);
      assert Split(s, sep)[0] == [s[0]] + rest[0];
      assert s[..k] == [s[0]] + s[1..][..k - 1];
    }
  }

  /** The concatenation of a sequence of strings. */
  function Concat(ss: seq<string>): string
  {
    if ss == [] then "" else ss[0] + Concat(ss[1..])
  }

  /** Concatenation distributes over appending sequences of strings. */
  lemma {:induction false} ConcatAppend(a: seq<string>, b: seq<string>)
    ensures Concat(a + b) == Concat(a) + Concat(b)
    decreases |a|
  {
    if a == [] {
      assert a + b == b;
    } else {
      assert (a + b)[1..] == a[1..] + b;
      ConcatAppend(a[1..], b);
    }
  }

  /** Two strings with the same characters are equal. */
  lemma LiteralEqual(a: string, b: string)
    requires |a| == |b|
    requires forall i | 0 <= i < |a| :: a[i] == b[i]
    ensures a == b
  {
  }
}

=== FILE: webhook.dfy ===
/** Delivery of one webhook call (`handler_inner` and `handler`).

    The delivery looks the webhook up, derives the localpart of the virtual
    user that posts for it, has that user registered and synced, makes sure
    it is in the webhook's room (the primary bot invites it, then it joins),
    and sends the payload's message as that user. Each host call's outcome
    is a parameter; the first failure ends the delivery, keeping whatever
    the earlier steps already did. The HTTP handler turns the result into a
    JSON reply and never rejects the request.
 */
module Webhook {
  import opened Base
  import opened Host
  import WebhookStore
  import WebhookRequest
  import Identity

  /** Outcomes of the host calls one delivery makes, in call order. */
  datatype DeliveryEnv = DeliveryEnv(
    /** acquiring a store connection for the lookup */
    conn: Outcome,
    /** registering the virtual user and syncing its profile */
    register: Outcome,
    /** the virtual user's one-off sync */
    sync: Outcome,
    /** obtaining the primary bot's client */
    botClient: Outcome,
    /** the primary bot's invite */
    invite: Outcome,
    /** the virtual user's join */
    join: Outcome,
    /** sending the message */
    send: Outcome)

  const NotFound: string := "Could not find webhook"
  const BotNotInRoom: string := "Couldn't get joined room from bot"
  const InviteFailed: string := "Failed to have bot invite the webhook"

  /** The virtual user that posts for `webhookId`. */
  function PosterLocalpart(cfg: Config, sha256: Identity.Hasher, webhookId: string): string
  {
    Identity.WebhookLocalpart(cfg.botLocalpart, sha256, webhookId)
  }

  /** Every step of a delivery succeeds up to and including the sync. */
  predicate Reaches(h: Host, names: Names, env: DeliveryEnv, webhookId: string)
  {
    && env.conn.Ok? && webhookId in h.store
    && names.parseRoomId(h.store[webhookId].roomId).Ok?
    && env.register.Ok? && env.sync.Ok?
  }

  /** The parsed room of a webhook that `Reaches` the membership check. */
  function TargetRoom(h: Host, names: Names, webhookId: string): string
    requires webhookId in h.store && names.parseRoomId(h.store[webhookId].roomId).Ok?
  {
    names.parseRoomId(h.store[webhookId].roomId).value
  }

  /** Sends the message as `poster`. */
  function Send(h: Host, env: DeliveryEnv, poster: string, room: string,
                content: WebhookRequest.MessageContent): (r: (Host, Outcome))
    ensures r.1.Ok? <==> env.send.Ok?
    ensures r.1.Ok? ==> r.0 == h.(log := h.log + [Sent(poster, room, content)])
    ensures r.1.Err? ==> r.0 == h
  {
    if env.send.Err? then (h, Err(env.send.error))
    else (h.(log := h.log + [Sent(poster, room, content)]), Pass)
  }

  /** The invite-then-join handshake for a poster not yet in the room. */
  function JoinRoom(h: Host, cfg: Config, names: Names, env: DeliveryEnv, poster: string,
                    room: string): (r: (Host, Outcome))
    ensures Extends(h, r.0)
    ensures r.1.Ok? <==>
      && env.botClient.Ok? && (cfg.botLocalpart, room) in h.joined
      && names.qualify(poster, cfg.domain).Ok? && env.invite.Ok? && env.join.Ok?
    ensures r.1.Ok? ==> r.0 == Host(h.store, h.joined + {(poster, room)},
                                    h.log + [Invited(cfg.botLocalpart, poster, room), Joined(poster, room)])
    ensures (cfg.botLocalpart, room) !in h.joined ==> r.0 == h
    ensures r.1.Err? ==> r.0.joined == h.joined && r.0.store == h.store
    ensures r.1.Err? ==> forall i :: |h.log| <= i < |r.0.log| ==> r.0.log[i].Invited?
  {
    if env.botClient.Err? then (h, Err(env.botClient.error))
    else if (cfg.botLocalpart, room) !in h.joined then (h, Err(BotNotInRoom))
    else
      var invitee := names.qualify(poster, cfg.domain);
      if invitee.Err? then (h, Err(invitee.error))
      else if env.invite.Err? then (h, Err(InviteFailed))
      else
        var invited := h.(log := h.log + [Invited(cfg.botLocalpart, poster, room)]);
        if env.join.Err? then (invited, Err(env.join.error))
        else (invited.(joined := invited.joined + {(poster, room)},
                       log := invited.log + [Joined(poster, room)]), Pass)
  }

  /** `handler_inner`: one delivery of `body` to the webhook `webhookId`. */
  function HandlerInner(h: Host, cfg: Config, names: Names, sha256: Identity.Hasher,
                        tf: WebhookRequest.Transforms, env: DeliveryEnv,
                        webhookId: string, body: WebhookRequest.Request): (r: (Host, Outcome))
    ensures Extends(h, r.0) && r.0.store == h.store
    ensures Valid(h) ==> Valid(r.0)
    ensures env.conn.Ok? && webhookId !in h.store ==> r == (h, Err(NotFound))
    ensures !Reaches(h, names, env, webhookId) ==> r.0 == h && r.1.Err?
    ensures r.1.Ok? ==>
      && Reaches(h, names, env, webhookId)
      && var room := TargetRoom(h, names, webhookId);
         var poster := PosterLocalpart(cfg, sha256, h.store[webhookId].id);
         && (poster, room) in r.0.joined
         && |r.0.log| > |h.log|
         && r.0.log[|r.0.log| - 1] == Sent(poster, room, WebhookRequest.CreateMessage(tf, body))
    ensures r.1.Err? ==> forall i :: |h.log| <= i < |r.0.log| ==> !r.0.log[i].Sent?
    ensures Reaches(h, names, env, webhookId)
            && (PosterLocalpart(cfg, sha256, h.store[webhookId].id), TargetRoom(h, names, webhookId))
               in h.joined ==>
      r.0.joined == h.joined && forall i :: |h.log| <= i < |r.0.log| ==> r.0.log[i].Sent?
  {
    var lookup := WebhookStore.GetWebhookById(h.store, webhookId, env.conn);
    if lookup.Err? then (h, Err(lookup.error))
    else if lookup.value.None? then (h, Err(NotFound))
    else
      var hook := lookup.value.value;
      var room := names.parseRoomId(hook.roomId);
      if room.Err? then (h, Err(room.error))
      else
        var poster := PosterLocalpart(cfg, sha256, hook.id);
        if env.register.Err? then (h, Err(env.register.error))
        else if env.sync.Err? then (h, Err(env.sync.error))
        else if (poster, room.value) in h.joined then
          Send(h, env, poster, room.value, WebhookRequest.CreateMessage(tf, body))
        else
          var (h', joined) := JoinRoom(h, cfg, names, env, poster, room.value);
          if joined.Err? then (h', joined)
          else Send(h', env, poster, room.value, WebhookRequest.CreateMessage(tf, body))
  }

  /** An unknown webhook id fails with "Could not find webhook" before any
      registration, invite, join or send. */
  lemma UnknownWebhookHasNoEffect(h: Host, cfg: Config, names: Names, sha256: Identity.Hasher,
                                  tf: WebhookRequest.Transforms, env: DeliveryEnv,
                                  webhookId: string, body: WebhookRequest.Request)
    requires env.conn.Ok? && webhookId !in h.store
    ensures HandlerInner(h, cfg, names, sha256, tf, env, webhookId, body) == (h, Err(NotFound))
  {
  }

  /** A poster already in the room goes straight to the send, whatever its
      outcome: no invite, no join. */
  lemma JoinedPosterOnlySends(h: Host, cfg: Config, names: Names, sha256: Identity.Hasher,
                              tf: WebhookRequest.Transforms, env: DeliveryEnv,
                              webhookId: string, body: WebhookRequest.Request)
    requires Reaches(h, names, env, webhookId)
    requires (PosterLocalpart(cfg, sha256, h.store[webhookId].id), TargetRoom(h, names, webhookId))
             in h.joined
    ensures var poster := PosterLocalpart(cfg, sha256, h.store[webhookId].id);
      var r := HandlerInner(h, cfg, names, sha256, tf, env, webhookId, body);
      && (env.send.Ok? ==>
            r == (h.(log := h.log + [Sent(poster, TargetRoom(h, names, webhookId),
                                          WebhookRequest.CreateMessage(tf, body))]), Pass))
      && (env.send.Err? ==> r == (h, Err(env.send.error)))
  {
  }

  /** A poster not yet in the room is invited by the primary bot, then
      joins, then sends, in that order. */
  lemma NewPosterInvitedThenJoinsThenSends(h: Host, cfg: Config, names: Names,
                                           sha256: Identity.Hasher,
                                           tf: WebhookRequest.Transforms, env: DeliveryEnv,
                                           webhookId: string, body: WebhookRequest.Request)
    requires Reaches(h, names, env, webhookId)
    requires env == DeliveryEnv(Pass, Pass, Pass, Pass, Pass, Pass, Pass)
    requires var poster := PosterLocalpart(cfg, sha256, h.store[webhookId].id);
      && (poster, TargetRoom(h, names, webhookId)) !in h.joined
      && (cfg.botLocalpart, TargetRoom(h, names, webhookId)) in h.joined
      && names.qualify(poster, cfg.domain).Ok?
    ensures var poster := PosterLocalpart(cfg, sha256, h.store[webhookId].id);
      var room := TargetRoom(h, names, webhookId);
      HandlerInner(h, cfg, names, sha256, tf, env, webhookId, body)
      == (Host(h.store, h.joined + {(poster, room)},
               h.log + [Invited(cfg.botLocalpart, poster, room), Joined(poster, room),
                        Sent(poster, room, WebhookRequest.CreateMessage(tf, body))]), Pass)
  {
    var poster := PosterLocalpart(cfg, sha256, h.store[webhookId].id);
    var room := TargetRoom(h, names, webhookId);
    assert h.log + [Invited(cfg.botLocalpart, poster, room), Joined(poster, room)]
                 + [Sent(poster, room, WebhookRequest.CreateMessage(tf, body))]
        == h.log + [Invited(cfg.botLocalpart, poster, room), Joined(poster, room),
                    Sent(poster, room, WebhookRequest.CreateMessage(tf, body))];
  }

  /** If the poster must be invited but the primary bot is not in the room,
      the delivery fails and nothing is invited, joined or sent. */
  lemma PrimaryBotAbsentFails(h: Host, cfg: Config, names: Names, sha256: Identity.Hasher,
                              tf: WebhookRequest.Transforms, env: DeliveryEnv,
                              webhookId: string, body: WebhookRequest.Request)
    requires Reaches(h, names, env, webhookId) && env.botClient.Ok?
    requires (PosterLocalpart(cfg, sha256, h.store[webhookId].id), TargetRoom(h, names, webhookId))
             !in h.joined
    requires (cfg.botLocalpart, TargetRoom(h, names, webhookId)) !in h.joined
    ensures HandlerInner(h, cfg, names, sha256, tf, env, webhookId, body) == (h, Err(BotNotInRoom))
  {
  }

  /** The HTTP reply: status and JSON body `{"success": …, "message": …}`. */
  datatype Reply = Reply(status: int, success: bool, message: Option<string>)

  const StatusOk: int := 200
  const StatusInternalServerError: int := 500

  /** `handler`: runs the delivery and always answers; success is 200 with
      `{"success": true}`, any failure 500 with the error's text. */
  function Handler(h: Host, cfg: Config, names: Names, sha256: Identity.Hasher,
                   tf: WebhookRequest.Transforms, env: DeliveryEnv,
                   webhookId: string, body: WebhookRequest.Request): (r: (Host, Result<Reply>))
    ensures r.1.Ok?
    ensures var (h', inner) := HandlerInner(h, cfg, names, sha256, tf, env, webhookId, body);
      && r.0 == h'
      && (inner.Ok? ==> r.1.value == Reply(StatusOk, true, None))
      && (inner.Err? ==> r.1.value == Reply(StatusInternalServerError, false, Some(inner.error)))
  {
    var (h', inner) := HandlerInner(h, cfg, names, sha256, tf, env, webhookId, body);
    match inner
    case Ok(_) => (h', Ok(Reply(StatusOk, true, None)))
    case Err(e) => (h', Ok(Reply(StatusInternalServerError, false, Some(e))))
  }

  /** The reply reports success exactly when the message was sent. */
  lemma ReplyReportsDelivery(h: Host, cfg: Config, names: Names, sha256: Identity.Hasher,
                             tf: WebhookRequest.Transforms, env: DeliveryEnv,
                             webhookId: string, body: WebhookRequest.Request)
    ensures var (h', reply) := Handler(h, cfg, names, sha256, tf, env, webhookId, body);
      && reply.value.success == (reply.value.status == StatusOk)
      && (reply.value.success <==> |h'.log| > |h.log| && h'.log[|h'.log| - 1].Sent?)
  {
    var (h', inner) := HandlerInner(h, cfg, names, sha256, tf, env, webhookId, body);
    if inner.Err? && |h'.log| > |h.log| {
      assert !h'.log[|h'.log| - 1].Sent?;
    }
  }

  /** An unknown webhook is answered with status 500 and its error text. */
  lemma UnknownWebhookReply(h: Host, cfg: Config, names: Names, sha256: Identity.Hasher,
                            tf: WebhookRequest.Transforms, env: DeliveryEnv,
                            webhookId: string, body: WebhookRequest.Request)
    requires env.conn.Ok? && webhookId !in h.store
    ensures Handler(h, cfg, names, sha256, tf, env, webhookId, body)
         == (h, Ok(Reply(StatusInternalServerError, false, Some(NotFound))))
  {
  }
}

=== FILE: webhook_request.dfy ===
/** The inbound webhook payload and the message content built from it
    (`WebhookRequest`).

    A payload is read from a JSON object, its text is optionally passed
    through emoji substitution, and it becomes the content of a Matrix
    `m.room.message` event of type `m.text`, `m.notice` or `m.emote`
    (Instant Messaging module of the Matrix Client-Server API), either plain
    or with an `org.matrix.custom.html` formatted body whose plain-text
    fallback is the text content of the markup.
 */
module WebhookRequest {
  import opened Base
  import Strings
  import Emoji
  import HtmlText

  /** How the payload's text is to be read. */
  datatype Format = Plain | Html

  /** The kind of message the payload asks for. */
  datatype MsgType = Regular | Notice | Emote

  /** A deserialised payload. `iconUrl` and `username` are the fields
      Slack-style senders use. */
  datatype Request = Request(
    text: string,
    format: Format,
    displayName: Option<string>,
    avatarUrl: Option<string>,
    emoji: bool,
    msgType: MsgType,
    iconUrl: Option<string>,
    username: Option<string>)

  // ---------------------------------------------------------------------
  // Reading the payload from JSON
  // ---------------------------------------------------------------------

  /** A JSON value as far as the payload's fields care. `JUnitObject(key)`
      is an object with the single entry `key: null`, the other form in
      which a unit enum variant may be written. Numbers, arrays and all
      other objects are never valid for any field and are not told apart. */
  datatype Json = JString(str: string) | JBool(flag: bool) | JNull | JUnitObject(key: string) | JOther

  /** The variant name a value spells for a unit-variant enum field: the
      string itself, or the key of a one-entry object with a `null` value. */
  function VariantName(v: Json): Option<string>
  {
    match v
    case JString(name) => Some(name)
    case JUnitObject(name) => Some(name)
    case _ => None
  }

  /** A JSON object, keyed by field name. */
  type JsonObject = map<string, Json>

  /** A string field that must be present. */
  function RequiredString(obj: JsonObject, key: string): Result<string>
  {
    if key !in obj then Err("missing field `" + key + "`")
    else if obj[key].JString? then Ok(obj[key].str)
    else Err("invalid type for field `" + key + "`")
  }

  /** An optional string field: absent and `null` both read as none. */
  function OptionalString(obj: JsonObject, key: string): Result<Option<string>>
  {
    if key !in obj || obj[key].JNull? then Ok(None)
    else if obj[key].JString? then Ok(Some(obj[key].str))
    else Err("invalid type for field `" + key + "`")
  }

  /** `format`: required, the lower-case variant name. */
  function FormatField(obj: JsonObject): Result<Format>
  {
    if "format" !in obj then Err("missing field `format`")
    else match VariantName(obj["format"])
      case None => Err("invalid type for field `format`")
      case Some(name) =>
        if name == "plain" then Ok(Plain)
        else if name == "html" then Ok(Html)
        else Err("unknown variant for field `format`")
  }

  /** `emoji`: a boolean, true when absent. */
  function EmojiField(obj: JsonObject): Result<bool>
  {
    if "emoji" !in obj then Ok(true)
    else if obj["emoji"].JBool? then Ok(obj["emoji"].flag)
    else Err("invalid type for field `emoji`")
  }

  /** `msgtype`: the lower-case variant name, `regular` when absent. */
  function MsgTypeField(obj: JsonObject): Result<MsgType>
  {
    if "msgtype" !in obj then Ok(Regular)
    else match VariantName(obj["msgtype"])
      case None => Err("invalid type for field `msgtype`")
      case Some(name) =>
        if name == "regular" then Ok(Regular)
        else if name == "notice" then Ok(Notice)
        else if name == "emote" then Ok(Emote)
        else Err("unknown variant for field `msgtype`")
  }

  /** Whether an optional string field holds an acceptable value. */
  predicate OptionalStringOk(obj: JsonObject, key: string)
  {
    key !in obj || obj[key].JNull? || obj[key].JString?
  }

  /** Whether `obj` is an acceptable payload, field by field. Fields the
      payload does not declare are ignored. */
  predicate WellFormed(obj: JsonObject)
  {
    && "text" in obj && obj["text"].JString?
    && "format" in obj && VariantName(obj["format"]) in {Some("plain"), Some("html")}
    && OptionalStringOk(obj, "displayName")
    && OptionalStringOk(obj, "avatarUrl")
    && ("emoji" !in obj || obj["emoji"].JBool?)
    && ("msgtype" !in obj
        || VariantName(obj["msgtype"]) in {Some("regular"), Some("notice"), Some("emote")})
    && OptionalStringOk(obj, "icon_url")
    && OptionalStringOk(obj, "username")
  }

  /** The string an optional field holds, or none when it is absent or
      `null`. */
  function StringOrNone(obj: JsonObject, key: string): Option<string>
  {
    if key in obj && obj[key].JString? then Some(obj[key].str) else None
  }

  /** Reads a payload: `text` and `format` are required, `emoji` defaults to
      true, `msgtype` defaults to `regular`, the other fields are optional. */
  function Deserialize(obj: JsonObject): (r: Result<Request>)
    ensures r.Ok? <==> WellFormed(obj)
    ensures r.Ok? ==> r.value.text == obj["text"].str
    ensures r.Ok? ==> r.value.format == (if VariantName(obj["format"]) == Some("plain") then Plain else Html)
    ensures r.Ok? ==> r.value.emoji == ("emoji" !in obj || obj["emoji"].flag)
    ensures r.Ok? ==>
      r.value.msgType == (if "msgtype" !in obj || VariantName(obj["msgtype"]) == Some("regular") then Regular
                          else if VariantName(obj["msgtype"]) == Some("notice") then Notice
                          else Emote)
    ensures r.Ok? ==>
      && r.value.displayName == StringOrNone(obj, "displayName")
      && r.value.avatarUrl == StringOrNone(obj, "avatarUrl")
      && r.value.iconUrl == StringOrNone(obj, "icon_url")
      && r.value.username == StringOrNone(obj, "username")
    ensures r.Ok? && "emoji" !in obj ==> r.value.emoji
    ensures r.Ok? && "msgtype" !in obj ==> r.value.msgType == Regular
  {
    var text :- RequiredString(obj, "text");
    var format :- FormatField(obj);
    var displayName :- OptionalString(obj, "displayName");
    var avatarUrl :- OptionalString(obj, "avatarUrl");
    var emoji :- EmojiField(obj);
    var msgType :- MsgTypeField(obj);
    var iconUrl :- OptionalString(obj, "icon_url");
    var username :- OptionalString(obj, "username");
    Ok(Request(text, format, displayName, avatarUrl, emoji, msgType, iconUrl, username))
  }

  /** The JSON a sender would post for `req`, omitting absent fields. */
  function Serialize(req: Request): JsonObject
  {
    var withName := WithOptional(RequiredFields(req), "displayName", req.displayName);
    var withAvatar := WithOptional(withName, "avatarUrl", req.avatarUrl);
    var withIcon := WithOptional(withAvatar, "icon_url", req.iconUrl);
    WithOptional(withIcon, "username", req.username)
  }

  /** The four fields every serialised payload carries. */
  function RequiredFields(req: Request): JsonObject
  {
    map[
      "text" := JString(req.text),
      "format" := JString(if req.format == Plain then "plain" else "html"),
      "emoji" := JBool(req.emoji),
      "msgtype" := JString(match req.msgType
                           case Regular => "regular"
                           case Notice => "notice"
                           case Emote => "emote")]
  }

  /** `obj` with `key` set when `v` is present. */
  function WithOptional(obj: JsonObject, key: string, v: Option<string>): (r: JsonObject)
    ensures OptionalString(r, key) == Ok(v)
    ensures forall k :: k != key ==> (k in r <==> k in obj) && (k in r ==> r[k] == obj[k])
  {
    if v.Some? then obj[key := JString(v.value)] else obj - {key}
  }

  /** The required fields of a serialised payload read back unchanged. */
  lemma SerializeRequired(req: Request)
    ensures var obj := Serialize(req);
      && RequiredString(obj, "text") == Ok(req.text)
      && FormatField(obj) == Ok(req.format)
      && EmojiField(obj) == Ok(req.emoji)
      && MsgTypeField(obj) == Ok(req.msgType)
  {
    SerializedText(req);
    SerializedFormat(req);
    SerializedEmoji(req);
    SerializedMsgType(req);
  }

  lemma SerializedText(req: Request)
    ensures RequiredString(Serialize(req), "text") == Ok(req.text)
  {
    KeptField(req, "text");
  }

  lemma SerializedFormat(req: Request)
    ensures FormatField(Serialize(req)) == Ok(req.format)
  {
    KeptField(req, "format");
    assert "html"[0] != "plain"[0];
  }

  lemma SerializedEmoji(req: Request)
    ensures EmojiField(Serialize(req)) == Ok(req.emoji)
  {
    KeptField(req, "emoji");
  }

  lemma SerializedMsgType(req: Request)
    ensures MsgTypeField(Serialize(req)) == Ok(req.msgType)
  {
    KeptField(req, "msgtype");
    var obj := Serialize(req);
    match req.msgType
    case Regular =>
      assert obj["msgtype"] == JString("regular");
    case Notice =>
      assert obj["msgtype"] == JString("notice");
      assert "notice"[0] != "regular"[0];
    case Emote =>
      assert obj["msgtype"] == JString("emote");
      assert "emote"[0] != "regular"[0] && "emote"[0] != "notice"[0];
  }

  /** A field outside the optional four keeps the value it had before the
      optional fields were added. */
  lemma KeptField(req: Request, k: string)
    requires k in RequiredFields(req)
    ensures k in Serialize(req) && Serialize(req)[k] == RequiredFields(req)[k]
  {
    assert k != "displayName" && k != "avatarUrl" && k != "icon_url" && k != "username";
  }

  /** The optional fields of a serialised payload read back unchanged. */
  lemma SerializeOptional(req: Request)
    ensures var obj := Serialize(req);
      && OptionalString(obj, "displayName") == Ok(req.displayName)
      && OptionalString(obj, "avatarUrl") == Ok(req.avatarUrl)
      && OptionalString(obj, "icon_url") == Ok(req.iconUrl)
      && OptionalString(obj, "username") == Ok(req.username)
  {
  }

  /** Every payload survives being written out and read back. */
  lemma DeserializeSerialize(req: Request)
    ensures Deserialize(Serialize(req)) == Ok(req)
  {
    SerializeRequired(req);
    SerializeOptional(req);
  }

  /** The payload of the source's first unit test reads with the defaults
      filled in. */
  lemma BasicPayloadDefaults()
    ensures Deserialize(map[
        "text" := JString("Hello world!"),
        "format" := JString("plain"),
        "displayName" := JString("My Cool Webhook"),
        "avatarUrl" := JString("http://i.imgur.com/IDOBtEJ.png")])
      == Ok(Request("Hello world!", Plain, Some("My Cool Webhook"),
                    Some("http://i.imgur.com/IDOBtEJ.png"), true, Regular, None, None))
  {
  }

  /** A unit variant may also be written as a one-entry object with a
      `null` value: `{"text": "x", "format": {"html": null}}` reads as an
      HTML payload. */
  lemma UnitObjectVariant()
    ensures Deserialize(map["text" := JString("x"), "format" := JUnitObject("html"),
                            "msgtype" := JUnitObject("notice")])
      == Ok(Request("x", Html, None, None, true, Notice, None, None))
  {
  }

  // ---------------------------------------------------------------------
  // Building the message content
  // ---------------------------------------------------------------------

  /** The Matrix message types the bridge sends. */
  datatype Kind = MText | MNotice | MEmote

  /** A formatted body and the name of its format. */
  datatype FormattedBody = FormattedBody(format: string, body: string)

  /** The content of an `m.room.message` event. */
  datatype MessageContent = MessageContent(
    kind: Kind,
    body: string,
    formatted: Option<FormattedBody>)

  /** The format name Matrix uses for HTML bodies. */
  const HtmlFormat: string := "org.matrix.custom.html"

  /** The text transforms the composer relies on: the emoji table and the
      HTML parser. */
  datatype Transforms = Transforms(emoji: Emoji.Table, parse: HtmlText.Parser)

  /** The message kind each payload `msgtype` selects. */
  function KindFor(m: MsgType): Kind
  {
    match m
    case Regular => MText
    case Notice => MNotice
    case Emote => MEmote
  }

  /** `parse_text`: the payload text, emoji-substituted when asked to. */
  function ParseText(tf: Transforms, req: Request): (r: string)
    ensures req.emoji ==> r == Emoji.ReplaceEmoji(tf.emoji, req.text)
    ensures !req.emoji ==> r == req.text
    ensures ':' !in req.text ==> r == req.text
  {
    if !req.emoji then req.text
    else if ':' !in req.text then
      Emoji.NoColonUnchanged(tf.emoji, req.text);
      Emoji.ReplaceEmoji(tf.emoji, req.text)
    else Emoji.ReplaceEmoji(tf.emoji, req.text)
  }

  /** `html_to_text` on the already-transformed text. */
  function HtmlToText(tf: Transforms, raw: string): string
  {
    HtmlText.HtmlToText(tf.parse, raw)
  }

  /** `create_message`: the six (msgtype, format) cases. */
  function CreateMessage(tf: Transforms, req: Request): (r: MessageContent)
    ensures req.msgType == Regular ==> r.kind == MText
    ensures req.msgType == Notice ==> r.kind == MNotice
    ensures req.msgType == Emote ==> r.kind == MEmote
    ensures req.format == Plain ==> r.body == ParseText(tf, req) && r.formatted == None
    ensures req.format == Html ==>
      && r.formatted == Some(FormattedBody(HtmlFormat, ParseText(tf, req)))
      && r.body == HtmlText.TextContent(tf.parse(ParseText(tf, req)))
  {
    var parsed := ParseText(tf, req);
    HtmlText.HtmlToTextIsTextContent(tf.parse, parsed);
    match (req.msgType, req.format)
    case (Regular, Plain) => MessageContent(MText, parsed, None)
    case (Regular, Html) =>
      MessageContent(MText, HtmlToText(tf, parsed), Some(FormattedBody(HtmlFormat, parsed)))
    case (Notice, Plain) => MessageContent(MNotice, parsed, None)
    case (Notice, Html) =>
      MessageContent(MNotice, HtmlToText(tf, parsed), Some(FormattedBody(HtmlFormat, parsed)))
    case (Emote, Plain) => MessageContent(MEmote, parsed, None)
    case (Emote, Html) =>
      MessageContent(MEmote, HtmlToText(tf, parsed), Some(FormattedBody(HtmlFormat, parsed)))
  }

  /** The content's shape gives back the payload's msgtype and format: no
      two of the six cases produce the same kind of content. */
  lemma ShapeDeterminesCase(tf: Transforms, a: Request, b: Request)
    requires CreateMessage(tf, a).kind == CreateMessage(tf, b).kind
    requires CreateMessage(tf, a).formatted.Some? == CreateMessage(tf, b).formatted.Some?
    ensures a.msgType == b.msgType && a.format == b.format
  {
  }

  /** Emoji substitution happens before HTML reduction: the plain body of an
      HTML message is the text content of the substituted markup. */
  lemma EmojiBeforeReduction(tf: Transforms, req: Request)
    requires req.format == Html && req.emoji
    ensures CreateMessage(tf, req).body
         == HtmlText.TextContent(tf.parse(Emoji.ReplaceEmoji(tf.emoji, req.text)))
    ensures CreateMessage(tf, req).formatted.value.body == Emoji.ReplaceEmoji(tf.emoji, req.text)
  {
  }

  /** The fallback display name. */
  const DefaultDisplayName: string := "Incoming Webhook"

  /** `get_display_name`: `displayName`, else `username`, else the fallback,
      emoji-substituted when the payload asks for it. */
  function DisplayName(tf: Transforms, req: Request): (r: string)
    ensures req.displayName.None? && req.username.None? ==> r == DefaultDisplayName
    ensures !req.emoji ==> r == req.displayName.GetOr(req.username.GetOr(DefaultDisplayName))
    ensures req.displayName.Some? && req.emoji ==>
      r == Emoji.ReplaceEmoji(tf.emoji, req.displayName.value)
    ensures req.displayName.None? && req.username.Some? && req.emoji ==>
      r == Emoji.ReplaceEmoji(tf.emoji, req.username.value)
  {
    var name :=
      if req.displayName.Some? then req.displayName.value
      else if req.username.Some? then req.username.value
      else DefaultDisplayName;
    Emoji.NoColonUnchanged(tf.emoji, DefaultDisplayName);
    if req.emoji then Emoji.ReplaceEmoji(tf.emoji, name) else name
  }

  /** `get_avatar_url`: `avatarUrl`, else `icon_url`, else none. */
  function AvatarUrl(req: Request): (r: Option<string>)
    ensures r.Some? <==> req.avatarUrl.Some? || req.iconUrl.Some?
    ensures req.avatarUrl.Some? ==> r == req.avatarUrl
    ensures req.avatarUrl.None? ==> r == req.iconUrl
  {
    if req.avatarUrl.Some? then req.avatarUrl else req.iconUrl
  }

  // ---------------------------------------------------------------------
  // The source's unit tests, stated for any emoji table and any parser
  // that builds the usual tree for the sample markup
  // ---------------------------------------------------------------------

  /** The markup the source's HTML tests post. */
  const SampleMarkup: string := "<b>Hello world!" + SampleMarkupTail

  /** An HTML payload of any msgtype carrying the sample markup gives the
      plain body `Hello world! aa bb` and keeps the markup verbatim. */
  lemma SampleMarkupMessage(tf: Transforms, m: MsgType)
    requires tf.parse(SampleMarkup) == HtmlText.SampleTree()
    ensures var req := Request(SampleMarkup, Html, Some("My Cool Webhook"),
                               Some("https://i.imgur.com/IDOBtEJ.png"), true, m, None, None);
      var c := CreateMessage(tf, req);
      && c.kind == KindFor(m)
      && c.body == "Hello world! aa bb"
      && c.formatted == Some(FormattedBody(HtmlFormat, SampleMarkup))
  {
    var req := Request(SampleMarkup, Html, Some("My Cool Webhook"),
                       Some("https://i.imgur.com/IDOBtEJ.png"), true, m, None, None);
    SampleMarkupHasNoColon();
    assert ParseText(tf, req) == SampleMarkup;
    HtmlText.SampleTreeText(tf.parse, SampleMarkup);
    HtmlText.HtmlToTextIsTextContent(tf.parse, SampleMarkup);
  }

  lemma SampleMarkupHasNoColon()
    ensures ':' !in SampleMarkup
  {
    var s := "<b>Hello world!";
    forall i | 0 <= i < |s| ensures s[i] != ':' {
    }
    TailHasNoColon();
  }

  /** The Slack-style payload: `username` and `icon_url` stand in for the
      missing `displayName` and `avatarUrl`, and the trailing shortcode of
      the name is substituted. */
  lemma SlackStylePayload(tf: Transforms)
    requires "heart" in tf.emoji
    ensures var req := Request("foo", Html, None, None, true, Regular,
                               Some("https://i.imgur.com/IDOBtEJ.png"),
                               Some("My Cool Webhook :heart:"));
      && DisplayName(tf, req) == "My Cool Webhook " + tf.emoji["heart"]
      && AvatarUrl(req) == Some("https://i.imgur.com/IDOBtEJ.png")
  {
    var p, h := "My Cool Webhook ", "heart";
    Emoji.TrailingShortcode(tf.emoji, p, h);
    Strings.LiteralEqual(p + ":" + h + ":", "My Cool Webhook :heart:");
  }

  /** The closing part of the sample markup after its first text. */
  const SampleMarkupTail: string := "</b> <br><ol><li>aa</li> <li>bb</li></ol>"

  lemma TailHasNoColon()
    ensures ':' !in SampleMarkupTail
  {
    var s := SampleMarkupTail;
    forall i | 0 <= i < |s| ensures s[i] != ':' {
    }
  }

  /** Shortcodes inside markup are substituted in the formatted body, and
      the plain body is the text content of the substituted markup. */
  lemma EmojiInMarkup(tf: Transforms)
    requires "heart" in tf.emoji
    requires var g := tf.emoji["heart"];
      tf.parse("<b>foo" + g + g + SampleMarkupTail) == HtmlText.MarkupTree("foo" + g + g)
    ensures var req := Request("<b>foo:heart::heart:" + SampleMarkupTail,
                               Html, Some("My Cool Webhook :heart:"),
                               Some("https://i.imgur.com/IDOBtEJ.png"), true, Emote, None, None);
      var g := tf.emoji["heart"];
      && CreateMessage(tf, req).kind == MEmote
      && CreateMessage(tf, req).formatted
         == Some(FormattedBody(HtmlFormat, "<b>foo" + g + g + SampleMarkupTail))
      && CreateMessage(tf, req).body == "foo" + g + g + " aa bb"
      && DisplayName(tf, req) == "My Cool Webhook " + g
  {
    var p, h, q := "<b>foo", "heart", SampleMarkupTail;
    TailHasNoColon();
    Emoji.AdjacentShortcodes(tf.emoji, p, h, q);
    Strings.LiteralEqual(p + ":" + h + "::" + h + ":", "<b>foo:heart::heart:");
    assert p + ":" + h + "::" + h + ":" + q == (p + ":" + h + "::" + h + ":") + q;
    var g := tf.emoji[h];
    assert p + g + g + q == "<b>foo" + g + g + SampleMarkupTail;
    HtmlText.MarkupTreeContent("foo" + g + g);
    var n := "My Cool Webhook ";
    Emoji.TrailingShortcode(tf.emoji, n, h);
    Strings.LiteralEqual(n + ":" + h + ":", "My Cool Webhook :heart:");
  }
}
